=== FILE: README.md ===
# dotrmdy-datastorage (LiteDB repositories) in Dafny

This project models the core of dotRMDY.DataStorage.LiteDB, a repository layer over the
LiteDB embedded document store. It covers the following parts:

- **Database handle (`BaseDb`).** The handle opens the database lazily, guarded by a
  semaphore. When the first open fails, it resets the files and retries exactly once. It
  can also dispose, reset, reinitialise, checkpoint and tear down the database, and drop a
  collection while swallowing engine errors. The file names are derived from the database
  name.
- **Repository base (`RepositoryBase`).** Every repository shares a once-only
  initialisation gate. The gate opens all of the repository's databases together and then
  runs each database's index hook in list order.
- **Single-store repository (`Repository`).** CRUD calls on one collection of the inbox
  database.
- **Outbox repository (`OutboxRepository`).** The inbox holds the synced baseline and the
  outbox holds pending local changes. Reads merge both stores and the outbox copy of a
  record wins. Upserts go to the inbox, `UpdateItem` stages a change in the outbox, deletes
  reach both stores, and each store's collection can be dropped on its own.
- **Identity comparer (`DefaultRepositoryBaseEntityEqualityComparer`).** The merge uses
  this comparer. Two entities are the same record when they have the same type and the
  same `Id`.

## Modules

| file | module | models |
|---|---|---|
| `entities.dfy` | `Entities` | The stored entity, the (type, `Id`) identity key, nullable references as `Option`, and read/write results that record which stores a call reached. |
| `identity.dfy` | `Identity` | The equality comparer and its hash. |
| `engine.dfy` | `Engine` | The LiteDB collection operations the repositories call, with the meaning they rely on. |
| `merge.dfy` | `Merge` | LINQ `Union` under the identity comparer. |
| `storehandle.dfy` | `StoreHandle` | `BaseDb`. |
| `repositorybase.dfy` | `RepositoryBase` | `RepositoryBase`. |
| `repository.dfy` | `Repository` | `Repository`. |
| `outbox.dfy` | `OutboxRepository` | `OutboxRepository`. |

### Modelling choices

- **Sequential calls, locks as flags.** Calls run one at a time. Each semaphore is a
  held/free flag with counts of how often it was taken and given back. Waiting on a held
  semaphore can never end in a sequential run, so such a call ends as `Blocked`.
- **Engine and key provider as inputs.** The outcome of each open attempt is an input
  (`OpenOutcome`). Three outcomes are possible:
  - the connection opens;
  - the connection string or constructor throws, and no instance is assigned;
  - the instance is assigned and then the `CollectionExistsAsync` probe throws.

  Whether a checkpoint, a drop or an index hook succeeds is an input too.
- **Files and paths.**
  - The file system is two existence flags: the database file and the log file.
  - `Path.Combine` is concatenation with `/` as the separator.
  - The database name must be a bare file name (no separator).
  - `Path.GetExtension` and `Path.GetFileNameWithoutExtension` split the name at its last
    `.`.
- **Repository contents.** Repository calls take and return database contents: a map from
  collection name to a sequence of entities with distinct `Id`s. Each result records the
  stores whose collection the call obtained, in order. Obtaining a collection goes through
  `GetDatabaseInstance`, which is modelled once, in `StoreHandle`.
- **Collection name.** A null `CollectionName` resolves to the entity's type name. That is
  LiteDB's default in `GetCollection`, and `DropCollection` spells it out.
- **Reference identity.** The comparer's reference test is modelled by value equality.
  Every pair it accepts also has the same type and `Id`, so the comparer's answer is
  unchanged.
- **Hash.** The comparer's hash is the hash of the `Id` string, which the runtime
  randomises per process. It is therefore a parameter, and `Identity.Hash` states only how
  it is built.
- **Duplicate `Id`s in a replacing batch.** With `dropExistingRecords`, the batch insert
  runs after the collection was emptied. The engine refuses such an insert as a whole when
  two items share an `Id`, so the call throws and leaves the collection empty.

## Model

| member | source | states |
|---|---|---|
| `Identity.Equals` | source/dotRMDY.DataStorage.LiteDB/Helpers/DefaultRepositoryBaseEntityEqualityComparer.cs:9-32 | Identical arguments are equal. Exactly one null argument makes them unequal. Two non-null entities are equal iff they have the same runtime type and the same `Id`. |
| `Identity.SameReferenceIsEqual` | source/dotRMDY.DataStorage.LiteDB/Helpers/DefaultRepositoryBaseEntityEqualityComparer.cs:11-14 | Every value, null included, equals itself. |
| `Identity.OneNullIsUnequal` | source/dotRMDY.DataStorage.LiteDB/Helpers/DefaultRepositoryBaseEntityEqualityComparer.cs:16-24 | Null never equals an entity, in either argument order. |
| `Identity.DifferentTypesAreUnequal` | source/dotRMDY.DataStorage.LiteDB/Helpers/DefaultRepositoryBaseEntityEqualityComparer.cs:26-29 | Entities of different runtime types are unequal, even with the same `Id`. |
| `Identity.SameTypeAndIdAreEqual` | source/dotRMDY.DataStorage.LiteDB/Helpers/DefaultRepositoryBaseEntityEqualityComparer.cs:26-31 | Same type and same `Id` means equal, whatever the payload. |
| `Identity.IsEquivalence` | source/dotRMDY.DataStorage.LiteDB/Helpers/DefaultRepositoryBaseEntityEqualityComparer.cs:9-32 | The comparer is reflexive, symmetric and transitive over nullable entities. |
| `Identity.EqualEntitiesHashAlike` | source/dotRMDY.DataStorage.LiteDB/Helpers/DefaultRepositoryBaseEntityEqualityComparer.cs:34-37 | Entities the comparer equates get the same hash, for every string hash function. |
| `Identity.HashIgnoresType` | source/dotRMDY.DataStorage.LiteDB/Helpers/DefaultRepositoryBaseEntityEqualityComparer.cs:36 | The hash depends on the `Id` only, so entities of two types that share an `Id` collide. |
| `Merge.Distinct` | source/dotRMDY.DataStorage.LiteDB/Repositories/Implementations/OutboxRepository.cs:44 | The union enumeration yields only input elements whose key was not seen earlier. Every input key is represented. No key appears twice. |
| `Merge.DistinctKeepsFirst` | source/dotRMDY.DataStorage.LiteDB/Repositories/Implementations/OutboxRepository.cs:44 | For each key not seen earlier, the element kept is the first one in the input with that key, so a later duplicate never replaces it. |
| `Merge.Union` | source/dotRMDY.DataStorage.LiteDB/Repositories/Implementations/OutboxRepository.cs:44 | Every result comes from one of the two inputs, the result's keys are exactly the keys of both inputs, and no key appears twice. `Merge.UnionIsOutboxWins` gives the exact sequence. |
| `Merge.UnionIsOutboxWins` | source/dotRMDY.DataStorage.LiteDB/Repositories/Implementations/OutboxRepository.cs:44 | When each store holds a key at most once, the union is all outbox items followed by the inbox items whose key the outbox lacks. |
| `Merge.UnionDeduplicates` | source/dotRMDY.DataStorage.LiteDB/Repositories/Implementations/OutboxRepository.cs:80 | No two results are equal under the comparer. Every input has an equal result, and every result is an input. |
| `Merge.OutboxCopyWins` | source/dotRMDY.DataStorage.LiteDB/Repositories/Implementations/OutboxRepository.cs:37-45 | Every outbox item is in the merged read. A result whose identity the outbox holds is the outbox copy. The size is the outbox size plus the number of unshadowed inbox items. |
| `Merge.DifferentTypesBothKept` | source/dotRMDY.DataStorage.LiteDB/Helpers/DefaultRepositoryBaseEntityEqualityComparer.cs:26-29 | An outbox and an inbox entity with the same `Id` but different types are both kept, in that order. |
| `Engine.UpsertAllLastWins` | source/dotRMDY.DataStorage.LiteDB/Repositories/Implementations/Repository.cs:82 | Upserting a batch leaves, for each `Id`, the last item that carries it; `Id`s not in the batch keep their old entity. |
| `StoreHandle.LogName` | source/dotRMDY.DataStorage.LiteDB/Databases/Implementations/BaseDb.cs:42 | The log file name. What it promises is stated by `StoreHandle.LogNameSplits`, `StoreHandle.LogNameIsBare` and `StoreHandle.LogPathDiffers`. |
| `StoreHandle.LogNameSplits` | source/dotRMDY.DataStorage.LiteDB/Databases/Implementations/BaseDb.cs:42 | For a name not ending in `.`, the log name's stem is the database stem plus `-log` and its extension is the database's. |
| `StoreHandle.DatabasePath` | source/dotRMDY.DataStorage.LiteDB/Databases/Implementations/BaseDb.cs:63-66 | The database path starts with the folder and ends with the database name, right after a separator or at the start. |
| `StoreHandle.LogPath` | source/dotRMDY.DataStorage.LiteDB/Databases/Implementations/BaseDb.cs:68-71 | The log path starts with the folder and ends with the log name, right after a separator or at the start. |
| `StoreHandle.LogPathDiffers` | source/dotRMDY.DataStorage.LiteDB/Databases/Implementations/BaseDb.cs:63-71 | The log path and the database path are never equal, for any folder and name. |
| `StoreHandle.TestFixturePaths` | source/dotRMDY.DataStorage.LiteDB.UnitTests/Databases/Implementations/BaseDbTest.cs:27-51 | `TestBaseDb.db` in `DatabaseFolderPath` yields the database and log paths the fixture expects. |
| `StoreHandle.IsInitialized` | source/dotRMDY.DataStorage.LiteDB/Databases/Implementations/BaseDb.cs:46 | A handle counts as initialised while it holds any instance, even a disposed one. `StoreHandle.FailedProbeOnRetryLooksInitialized` and `StoreHandle.TeardownHandsOutDisposedInstance` state the consequences. |
| `StoreHandle.Dispose` | source/dotRMDY.DataStorage.LiteDB/Databases/Implementations/BaseDb.cs:204-211 | Afterwards there is no instance. Files and semaphore are untouched. |
| `StoreHandle.DisposeIsIdempotent` | source/dotRMDY.DataStorage.LiteDB/Databases/Implementations/BaseDb.cs:120-124 | Disposing twice is disposing once. |
| `StoreHandle.ResetDatabase` | source/dotRMDY.DataStorage.LiteDB/Databases/Implementations/BaseDb.cs:105-118 | Afterwards neither file exists. The instance and semaphore are untouched. |
| `StoreHandle.ResetIsIdempotent` | source/dotRMDY.DataStorage.LiteDB/Databases/Implementations/BaseDb.cs:105-118 | Resetting twice is resetting once, because each delete is guarded by an existence check. |
| `StoreHandle.CleanedUp` | source/dotRMDY.DataStorage.LiteDB/Databases/Implementations/BaseDb.cs:163-167 | The recovery before the retry leaves no instance, no files and a free semaphore. It gives the semaphore back once; it neither takes it nor makes an open attempt. |
| `StoreHandle.InitializeWith` | source/dotRMDY.DataStorage.LiteDB/Databases/Implementations/BaseDb.cs:126-174 | An open handle is returned untouched. A closed handle whose semaphore is held blocks. Otherwise the call succeeds iff an allowed attempt opens, and success leaves an instance and a free semaphore. A rethrow leaves the semaphore held unless releasing is chosen. When the first attempt failed and no retry constructed an instance, no files remain. |
| `StoreHandle.LockedWith` | source/dotRMDY.DataStorage.LiteDB/Databases/Implementations/BaseDb.cs:133-173 | After the wait, an instance that appeared meanwhile is released and returned. Otherwise the first failure retries and a failed retry rethrows, with the semaphore held unless releasing is chosen. The call never blocks. When the first attempt failed and no retry constructed an instance, no files remain. |
| `StoreHandle.InitializeInternal` | source/dotRMDY.DataStorage.LiteDB/Databases/Implementations/BaseDb.cs:126-174 | The source as written. An open handle is untouched, and a closed handle whose semaphore is held blocks. Otherwise the call succeeds iff an allowed attempt opens, and every throw leaves the semaphore held. |
| `StoreHandle.InitializeReleasing` | source/dotRMDY.DataStorage.LiteDB/Databases/Implementations/BaseDb.cs:154-173 | The corrected open. An open handle is untouched, and a closed handle whose semaphore is held blocks. Otherwise the call succeeds iff an allowed attempt opens, and a call that found the semaphore free always leaves it free. |
| `StoreHandle.LockedAccounting` | source/dotRMDY.DataStorage.LiteDB/Databases/Implementations/BaseDb.cs:126-174 | A first attempt that opens, or a retry, makes exactly one attempt and one take. A first attempt that fails makes exactly two of each. Success, or releasing on rethrow, balances takes and gives. A failed retry as written takes once more than it gives. |
| `StoreHandle.InitializeAccounting` | source/dotRMDY.DataStorage.LiteDB/Databases/Implementations/BaseDb.cs:126-174 | As written: an open or blocked handle makes no attempt and no take. Otherwise the call makes one attempt and one take when the first open succeeds, and two of each when it fails. Success balances the semaphore; a throw leaves it taken once more than given. |
| `StoreHandle.ReleasingIsBalanced` | source/dotRMDY.DataStorage.LiteDB/Databases/Implementations/BaseDb.cs:154-173 | Corrected: at most two attempts, and the semaphore is given back as often as it is taken. |
| `StoreHandle.RetryFailureWedgesHandle` | source/dotRMDY.DataStorage.LiteDB/Databases/Implementations/BaseDb.cs:158-161 | As written, two failed constructor attempts throw and leave no instance. Every later open of that handle blocks. |
| `StoreHandle.ReleasingRecovers` | source/dotRMDY.DataStorage.LiteDB/Databases/Implementations/BaseDb.cs:158-161 | Corrected, a handle whose opens failed can still be opened by a later call. |
| `StoreHandle.FailedProbeOnRetryLooksInitialized` | source/dotRMDY.DataStorage.LiteDB/Databases/Implementations/BaseDb.cs:150-161 | When the retry assigns an instance and then its probe throws, the call throws but the handle reports itself initialised. |
| `StoreHandle.Initialize` | source/dotRMDY.DataStorage.LiteDB/Databases/Implementations/BaseDb.cs:48-51 | The open as written. An open handle is untouched, and a closed handle whose semaphore is held blocks. Otherwise the call succeeds iff one of the two attempts opens; success leaves the semaphore free and a throw leaves it held. |
| `StoreHandle.GetDatabaseInstance` | source/dotRMDY.DataStorage.LiteDB/Databases/Implementations/BaseDb.cs:53-61 | An existing instance is returned without any open. A returned instance is never null. A closed handle opens iff an attempt succeeds and blocks while the semaphore is held. A failed open, as written, leaves the semaphore held. |
| `StoreHandle.ReinitializeCollections` | source/dotRMDY.DataStorage.LiteDB/Databases/Implementations/BaseDb.cs:96-103 | Even an open handle is reopened from scratch. It succeeds iff an attempt opens and blocks while the semaphore is held. Success leaves the semaphore free; a throw, as written, leaves it held. |
| `StoreHandle.ReinitializeReopens` | source/dotRMDY.DataStorage.LiteDB/Databases/Implementations/BaseDb.cs:96-103 | When the semaphore is free, reinitialising always makes at least one fresh open attempt. |
| `StoreHandle.DbCheckPoint` | source/dotRMDY.DataStorage.LiteDB/Databases/Implementations/BaseDb.cs:185-202 | Without an instance nothing happens. A failed checkpoint deletes the log file and a successful one leaves it. The instance, the semaphore and the database file are untouched. |
| `StoreHandle.CheckPointKeepsInstance` | source/dotRMDY.DataStorage.LiteDB/Databases/Implementations/BaseDb.cs:185-202 | A checkpoint never closes the connection: an open handle is still handed out without reopening, and checkpointing again changes nothing more. |
| `StoreHandle.CheckPointAndDelete` | source/dotRMDY.DataStorage.LiteDB/Databases/Implementations/BaseDb.cs:73-79 | Teardown takes the semaphore and keeps it. It disposes the instance without forgetting it and deletes the log file, leaving the database file. |
| `StoreHandle.TeardownBlocksLaterOpen` | source/dotRMDY.DataStorage.LiteDB/Databases/Implementations/BaseDb.cs:73-79 | After teardown of a never-opened handle, `GetDatabaseInstance` blocks. |
| `StoreHandle.TeardownHandsOutDisposedInstance` | source/dotRMDY.DataStorage.LiteDB/Databases/Implementations/BaseDb.cs:75-77 | After teardown of an open handle, `GetDatabaseInstance` hands out the disposed instance without reopening. |
| `StoreHandle.DropFromContent` | source/dotRMDY.DataStorage.LiteDB/Databases/Implementations/BaseDb.cs:84-93 | If the drop throws, the contents are unchanged. Otherwise the collection is gone, even when the checkpoint then throws. Other collections are untouched either way. |
| `StoreHandle.DropCollection` | source/dotRMDY.DataStorage.LiteDB/Databases/Implementations/BaseDb.cs:81-94 | Engine errors never make the call fail; only a failed open does. A failed or blocked open is returned as the call's own outcome, with the contents unchanged. |
| `RepositoryBase.Joint` | source/dotRMDY.DataStorage.LiteDB/Repositories/Implementations/RepositoryBase.cs:52 | Waiting on all opens succeeds iff every open succeeds, and never ends iff one never ends. |
| `RepositoryBase.OpenAll` | source/dotRMDY.DataStorage.LiteDB/Repositories/Implementations/RepositoryBase.cs:52 | Every database is opened on its own handle. The joint outcome is done iff all are done and blocked iff one blocks. |
| `RepositoryBase.IndexAll` | source/dotRMDY.DataStorage.LiteDB/Repositories/Implementations/RepositoryBase.cs:70-76 | Index hooks run in list order and stop at the first failure. Success means every hook succeeded and all of them ran. |
| `RepositoryBase.Initialize` | source/dotRMDY.DataStorage.LiteDB/Repositories/Implementations/RepositoryBase.cs:35-62 | A set flag returns at once and a held gate blocks. Otherwise the flag is set iff every open and every hook succeeded, and then every database is open. The gate is released on every exit that returns. |
| `RepositoryBase.InitializeIsIdempotent` | source/dotRMDY.DataStorage.LiteDB/Repositories/Implementations/RepositoryBase.cs:37-40 | After a successful initialisation, later calls touch neither the gate nor any database. |
| `RepositoryBase.FailedInitializeIsRetried` | source/dotRMDY.DataStorage.LiteDB/Repositories/Implementations/RepositoryBase.cs:58-61 | A failed initialisation leaves the flag unset and the gate free, so the next call takes the gate and tries again. |
| `RepositoryBase.WedgedDatabaseHoldsGate` | source/dotRMDY.DataStorage.LiteDB/Repositories/Implementations/RepositoryBase.cs:44-61 | When a database's two open attempts both throw, the first call throws and frees the gate, but the next call takes the gate and blocks on that database's semaphore, so the gate stays held. |
| `RepositoryBase.IndexHooksRunInOrder` | source/dotRMDY.DataStorage.LiteDB/Repositories/Implementations/RepositoryBase.cs:70-76 | A hook runs only after every earlier hook succeeded. |
| `RepositoryBase.IndexingReopensNothing` | source/dotRMDY.DataStorage.LiteDB/Repositories/Implementations/RepositoryBase.cs:78-82 | Once all databases opened, obtaining their collections for the hooks returns each handle unchanged. |
| `RepositoryBase.GetCollection` | source/dotRMDY.DataStorage.LiteDB/Repositories/Implementations/RepositoryBase.cs:64-68 | An open handle is handed back untouched. A returned instance is never null. A closed handle whose semaphore is held blocks. The collection named is the repository's. |
| `RepositoryBase.GetCollectionIsStable` | source/dotRMDY.DataStorage.LiteDB/Repositories/Implementations/RepositoryBase.cs:64-68 | Once a collection was obtained, obtaining it again opens nothing and names the same collection. |
| `RepositoryBase.EnsureIndexes` | source/dotRMDY.DataStorage.LiteDB/Repositories/Implementations/RepositoryBase.cs:78-87 | The call succeeds iff the database instance is obtained and the hook succeeds. An open handle is left as it is. |
| `RepositoryBase.EnsureIndexesAfterOpen` | source/dotRMDY.DataStorage.LiteDB/Repositories/Implementations/RepositoryBase.cs:78-87 | On a database the repository already obtained a collection from, ensuring indexes leaves the handle as it is and ends as the hook does. |
| `Repository.GetAll` | source/dotRMDY.DataStorage.LiteDB/Repositories/Implementations/Repository.cs:32-36 | The result holds exactly the collection's entities, with distinct `Id`s, and reads only the inbox. |
| `Repository.GetForId` | source/dotRMDY.DataStorage.LiteDB/Repositories/Implementations/Repository.cs:38-42 | The result is a stored entity with that `Id`. It is null iff there is none. |
| `Repository.FindItem` | source/dotRMDY.DataStorage.LiteDB/Repositories/Implementations/Repository.cs:44-48 | The result is a stored entity satisfying the predicate. It is null iff none does. |
| `Repository.QueryItems` | source/dotRMDY.DataStorage.LiteDB/Repositories/Implementations/Repository.cs:50-54 | The results are exactly the stored entities satisfying the predicate. |
| `Repository.UpsertItem` | source/dotRMDY.DataStorage.LiteDB/Repositories/Implementations/Repository.cs:56-65 | A null item obtains no collection and changes nothing. Otherwise the item is stored under its `Id` and every other `Id` and collection keeps its entity. |
| `Repository.UpsertAllItems` | source/dotRMDY.DataStorage.LiteDB/Repositories/Implementations/Repository.cs:67-84 | A null list is ignored. Replacing leaves exactly the list's entities by `Id`, or, with duplicate `Id`s, throws and leaves the collection empty. Other collections are untouched. |
| `Repository.DeleteItem` | source/dotRMDY.DataStorage.LiteDB/Repositories/Implementations/Repository.cs:86-90 | Exactly the entity with that `Id` is removed. |
| `Repository.DeleteMany` | source/dotRMDY.DataStorage.LiteDB/Repositories/Implementations/Repository.cs:92-96 | Exactly the entities satisfying the predicate are removed. |
| `Repository.DropCollection` | source/dotRMDY.DataStorage.LiteDB/Repositories/Implementations/Repository.cs:98-102 | After an open, the inbox collection is dropped with engine errors swallowed. The call fails only when the open or the re-run index hook fails. Other collections are untouched. |
| `Repository.UpsertThenGet` | source/dotRMDY.DataStorage.LiteDB/Repositories/Implementations/Repository.cs:56-65 | Read after write: `GetForId` returns the upserted item. |
| `Repository.NullWritesTouchNothing` | source/dotRMDY.DataStorage.LiteDB/Repositories/Implementations/Repository.cs:56-72 | Null upserts obtain no collection, so they trigger no open, and change nothing. |
| `Repository.DeleteThenGet` | source/dotRMDY.DataStorage.LiteDB/Repositories/Implementations/Repository.cs:86-90 | After a delete, neither `GetForId` nor `GetAll` shows the `Id`. |
| `Repository.DeleteManyLeavesComplement` | source/dotRMDY.DataStorage.LiteDB/Repositories/Implementations/Repository.cs:92-96 | After `DeleteMany(p)`, `GetAll` holds what `QueryItems(not p)` found before, and `QueryItems(p)` finds nothing. |
| `Repository.FindItemAgreesWithQuery` | source/dotRMDY.DataStorage.LiteDB/Repositories/Implementations/Repository.cs:44-54 | `FindItem(p)` is null iff `QueryItems(p)` is empty. Otherwise it returns one of the query's results. |
| `Repository.GetForIdAgreesWithGetAll` | source/dotRMDY.DataStorage.LiteDB/Repositories/Implementations/Repository.cs:32-42 | `GetForId` finds something iff `GetAll` holds that `Id`, and what it finds is in `GetAll`. |
| `Repository.UpsertAllLastWins` | source/dotRMDY.DataStorage.LiteDB/Repositories/Implementations/Repository.cs:80-83 | Without the drop flag, each `Id` holds the last batch item that carries it, else its old entity. |
| `Repository.DropThenGetAll` | source/dotRMDY.DataStorage.LiteDB/Repositories/Implementations/Repository.cs:98-102 | After a drop that reached the engine and succeeded, `GetAll` is empty. |
| `OutboxRepository.GetAll` | source/dotRMDY.DataStorage.LiteDB/Repositories/Implementations/OutboxRepository.cs:37-45 | The call obtains the inbox, then the outbox. Results come from the two stores and no identity appears twice. Every stored identity is represented. |
| `OutboxRepository.GetForId` | source/dotRMDY.DataStorage.LiteDB/Repositories/Implementations/OutboxRepository.cs:47-58 | An outbox hit is returned without touching the inbox. Otherwise the inbox is asked. The result is null iff neither store holds the `Id`. |
| `OutboxRepository.FindItem` | source/dotRMDY.DataStorage.LiteDB/Repositories/Implementations/OutboxRepository.cs:60-71 | An outbox match is returned without touching the inbox. Otherwise the inbox is asked. The result is null iff nothing in either store matches. |
| `OutboxRepository.QueryItems` | source/dotRMDY.DataStorage.LiteDB/Repositories/Implementations/OutboxRepository.cs:73-81 | The call obtains the inbox, then the outbox. Results satisfy the predicate, come from a store and are deduplicated by identity, and every matching identity is represented. On well-formed stores the result is the outbox matches followed by the inbox matches the outbox matches do not shadow. |
| `OutboxRepository.UpsertItem` | source/dotRMDY.DataStorage.LiteDB/Repositories/Implementations/OutboxRepository.cs:83-92 | A null item is ignored. Otherwise the item is stored in the inbox under its `Id`, every other `Id` and inbox collection keeps its entity, and the outbox is untouched. The inbox ends as the single-store upsert leaves it. |
| `OutboxRepository.UpsertAllItems` | source/dotRMDY.DataStorage.LiteDB/Repositories/Implementations/OutboxRepository.cs:94-112 | The inbox ends as the single-store batch write leaves it. A null list is ignored. A replacing batch leaves exactly its entities, or, with duplicate `Id`s, throws and leaves the collection empty. Other inbox collections and the whole outbox are untouched. |
| `OutboxRepository.UpdateItem` | source/dotRMDY.DataStorage.LiteDB/Repositories/Implementations/OutboxRepository.cs:114-118 | The model is staged in the outbox and the inbox is untouched. Other outbox collections are unchanged. A null model throws and changes nothing. |
| `OutboxRepository.DeleteItem` | source/dotRMDY.DataStorage.LiteDB/Repositories/Implementations/OutboxRepository.cs:120-127 | The `Id` is removed from both stores; every other entity of either collection stays, and other collections of both stores are unchanged. |
| `OutboxRepository.DeleteMany` | source/dotRMDY.DataStorage.LiteDB/Repositories/Implementations/OutboxRepository.cs:129-136 | Matching entities are removed from both stores; every other entity of either collection stays, and other collections of both stores are unchanged. |
| `OutboxRepository.DropCollection` | source/dotRMDY.DataStorage.LiteDB/Repositories/Implementations/OutboxRepository.cs:138-142 | Only the inbox collection is dropped. The outbox is untouched. After an open, the call succeeds iff the re-run index hook succeeds; a failed or blocked open is the call's outcome. |
| `OutboxRepository.DropOutboxCollection` | source/dotRMDY.DataStorage.LiteDB/Repositories/Implementations/OutboxRepository.cs:144-148 | Only the outbox collection is dropped. The inbox is untouched. After an open, the call succeeds iff the re-run index hook succeeds; a failed or blocked open is the call's outcome. |
| `OutboxRepository.GetAllIsOutboxWins` | source/dotRMDY.DataStorage.LiteDB/Repositories/Implementations/OutboxRepository.cs:42-44 | On well-formed stores, the merged read is the outbox items followed by the inbox items the outbox does not shadow. |
| `OutboxRepository.GetForIdAgreesWithGetAll` | source/dotRMDY.DataStorage.LiteDB/Repositories/Implementations/OutboxRepository.cs:37-58 | `GetForId` finds something iff `GetAll` holds that `Id`, and what it finds is in `GetAll`. |
| `OutboxRepository.UpdateThenGet` | source/dotRMDY.DataStorage.LiteDB/Repositories/Implementations/OutboxRepository.cs:114-118 | A staged change is what `GetForId` returns next, from the outbox alone. |
| `OutboxRepository.UpdateThenGetAll` | source/dotRMDY.DataStorage.LiteDB/Repositories/Implementations/OutboxRepository.cs:114-118 | A staged change appears in the merged read, whatever the inbox holds. |
| `OutboxRepository.UpsertShadowedByOutbox` | source/dotRMDY.DataStorage.LiteDB/Repositories/Implementations/OutboxRepository.cs:47-58 | While the outbox holds an `Id`, an inbox upsert of that `Id` does not change what `GetForId` returns. |
| `OutboxRepository.DeleteThenGet` | source/dotRMDY.DataStorage.LiteDB/Repositories/Implementations/OutboxRepository.cs:120-127 | After a delete, neither lookup shows the `Id`. |
| `OutboxRepository.UpsertAllThenGet` | source/dotRMDY.DataStorage.LiteDB/Repositories/Implementations/OutboxRepository.cs:94-112 | After a batch upsert without the drop flag, an `Id` the outbox holds still reads as the outbox copy. Any other `Id` reads as the last batch item carrying it, else as before. |
| `OutboxRepository.FindItemAgreesWithQuery` | source/dotRMDY.DataStorage.LiteDB/Repositories/Implementations/OutboxRepository.cs:60-81 | `FindItem(p)` is null iff `QueryItems(p)` is empty. Otherwise it returns one of the query's results. |
| `OutboxRepository.QueryMatchingAllIsGetAll` | source/dotRMDY.DataStorage.LiteDB/Repositories/Implementations/OutboxRepository.cs:37-81 | A query whose predicate every stored entity satisfies returns exactly what `GetAll()` returns. |
| `OutboxRepository.DeleteManyThenQuery` | source/dotRMDY.DataStorage.LiteDB/Repositories/Implementations/OutboxRepository.cs:129-136 | After `DeleteMany(p)`, `QueryItems(p)` is empty and `GetAll()` holds no match. |
| `OutboxRepository.DropThenGetAll` | source/dotRMDY.DataStorage.LiteDB/Repositories/Implementations/OutboxRepository.cs:138-142 | After a successful inbox drop, the merged read is exactly the outbox collection. |
| `OutboxRepository.DropOutboxThenGetAll` | source/dotRMDY.DataStorage.LiteDB/Repositories/Implementations/OutboxRepository.cs:144-148 | After a successful outbox drop, the merged read is exactly the inbox collection. |
| `OutboxRepository.QueryCanReturnShadowedInboxCopy` | source/dotRMDY.DataStorage.LiteDB/Repositories/Implementations/OutboxRepository.cs:78-80 | Each store is filtered before the merge. So a query can return the inbox copy of a record whose outbox copy no longer matches, while `GetAll` yields only the outbox copy. |
| `OutboxRepository.MergeScenario` | source/dotRMDY.DataStorage.LiteDB.UnitTests/Repositories/Implementations/OutboxRepositoryTest.cs:61-120 | The test's stores (outbox `id1`, `id2`; inbox `id2`, `id3`) merge to outbox `id1`, outbox `id2`, inbox `id3`. |

## Left out

- The LiteDB engine: storage, indexes, encryption, transactions and query execution. `Engine` states only the meaning the repositories rely on.
- Real concurrency. Calls are sequential, so the re-checks after a semaphore wait (`BaseDb.cs` line 135, `RepositoryBase.cs` line 46) cannot fire from outside. `StoreHandle.LockedWith` still models the handle's re-check as a branch.
- Database opens and the index hooks never create files; only deletes are modelled. So the "no files remain" clauses of `StoreHandle.InitializeWith`, `StoreHandle.LockedWith` and `StoreHandle.InitializeInternal` are stated only when no retry constructed an instance.
- Failing or blocking collection access inside CRUD calls. `Repository` and `OutboxRepository` reads and writes work on the stored contents and always reach the engine. In particular, `OutboxRepository.DeleteItem` and `OutboxRepository.DeleteMany` run one `Task.WhenAll` over both stores, and the source can delete from one store and then throw on the other; that partial write is not modelled.
- The key provider and the connection string: they are folded into the open outcome.
- The 90-second engine lock timeout and the `Mapper`: these are engine settings.
- Database contents across resets. `StoreHandle.ResetDatabase`, the recovery before a retry (`BaseDb.cs` lines 162-164) and `StoreHandle.ReinitializeCollections` clear the file flags of the handle. The repository contents are a separate parameter, and the model does not empty them when the files are deleted.
- Logging and the finalizer `~BaseDb`, which calls `Dispose(false)` and does nothing.
- `Count()`: the core shows no implementation of it.
- The hook that calls `Initialize` before CRUD calls. `RepositoryBase.Initialize` is modelled on its own, and the CRUD calls do not claim to run it.
- Concrete hash values: the string hash is a parameter.
- Null elements inside a batch passed to `UpsertAllItems`: items are entities.
- `Identity.Hash`: only how it is built is stated. What it promises is stated by `Identity.EqualEntitiesHashAlike` and `Identity.HashIgnoresType`.

## Findings

| source | as written | input that shows it | evidently intended | confidence | as-written member | corrected member |
|---|---|---|---|---|---|---|
| source/dotRMDY.DataStorage.LiteDB/Databases/Implementations/BaseDb.cs:158-161 | A failed retry rethrows while still holding the semaphore taken at line 133. | A closed handle where both open attempts throw in the constructor. The call throws, and every later `Initialize` or `GetDatabaseInstance` on that handle waits forever (`StoreHandle.RetryFailureWedgesHandle`). | Release the semaphore on every exit, as the successful path (line 173) and the first failure (line 167) do. | not executed | `StoreHandle.InitializeInternal` | `StoreHandle.InitializeReleasing` |

`StoreHandle.Initialize`, `StoreHandle.GetDatabaseInstance` and
`StoreHandle.ReinitializeCollections` open through the as-written `StoreHandle.InitializeInternal`,
as the source does, so the wedge reaches every repository built on them
(`RepositoryBase.WedgedDatabaseHoldsGate`). The corrected open is proved separately
(`StoreHandle.ReleasingRecovers`, `StoreHandle.ReleasingIsBalanced`).

=== FILE: engine.dfy ===
/**
 The document store as the repositories see it: a database holds named collections, a
 collection is a sequence of entities whose `Id`s are distinct, and a predicate is a plain
 Dafny function. Only the collection operations the repositories call are given, each
 with the meaning the repositories rely on.
 */
module Engine {
  import opened Entities

  /** The contents of one database file: its collections by name. */
  type Db = map<string, seq<Entity>>

  predicate ValidDb(db: Db)
  {
    forall n :: n in db ==> DistinctIds(db[n])
  }

  /** The collection called `name`; one that was never written or was dropped reads as empty. */
  function Coll(db: Db, name: string): (c: seq<Entity>)
    ensures name !in db ==> c == []
    ensures ValidDb(db) ==> DistinctIds(c)
  {
    if name in db then db[name] else []
  }

  /** Replaces the collection called `name`; every other collection keeps its contents. */
  function Put(db: Db, name: string, c: seq<Entity>): (r: Db)
    ensures Coll(r, name) == c
    ensures forall n :: n != name ==> Coll(r, n) == Coll(db, n)
    ensures ValidDb(db) && DistinctIds(c) ==> ValidDb(r)
  {
    db[name := c]
  }

  /** `FindById`: the entity stored under `id`, or null. */
  function FindById(c: seq<Entity>, id: string): (r: Option<Entity>)
    ensures r.Some? ==> r.value in c && r.value.id == id
    ensures r.None? <==> !HasId(c, id)
  {
    if c == [] then None
    else if c[0].id == id then Some(c[0])
    else FindById(c[1..], id)
  }

  /** `FindOne`: some entity satisfying `p`, or null when none does. */
  function FindOne(c: seq<Entity>, p: Entity -> bool): (r: Option<Entity>)
    ensures r.Some? ==> r.value in c && p(r.value)
    ensures r.None? <==> forall e :: e in c ==> !p(e)
  {
    if c == [] then None
    else if p(c[0]) then Some(c[0])
    else FindOne(c[1..], p)
  }

  /** The entities of `c` satisfying `p`, in their stored order (`Find`). */
  function Filter(c: seq<Entity>, p: Entity -> bool): (r: seq<Entity>)
    ensures forall e :: e in r <==> e in c && p(e)
    ensures |r| <= |c|
    ensures r == [] <==> forall e :: e in c ==> !p(e)
    ensures DistinctIds(c) ==> DistinctIds(r)
  {
    if c == [] then []
    else if p(c[0]) then
      var rest := Filter(c[1..], p);
      if DistinctIds(c) then DistinctIdsUncons(c); DistinctIdsCons(c[0], rest); [c[0]] + rest
      else [c[0]] + rest
    else Filter(c[1..], p)
  }

  /** A predicate every stored entity satisfies filters nothing out. */
  lemma {:induction false} FilterKeepsAll(c: seq<Entity>, p: Entity -> bool)
    requires forall e :: e in c ==> p(e)
    ensures Filter(c, p) == c
    decreases |c|
  {
    if c != [] {
      assert c[0] in c;
      FilterKeepsAll(c[1..], p) by {
        forall e | e in c[1..] ensures p(e) { assert e in c; }
      }
      assert c == [c[0]] + c[1..];
    }
  }

  /** `Upsert(item)`: replaces the entity with the same `Id`, or appends a new one. */
  function Upsert(c: seq<Entity>, e: Entity): (r: seq<Entity>)
    ensures FindById(r, e.id) == Some(e)
    ensures forall id :: id != e.id ==> FindById(r, id) == FindById(c, id)
    ensures forall x :: x in r ==> x == e || x in c
    ensures DistinctIds(c) ==> DistinctIds(r)
  {
    if c == [] then [e]
    else if c[0].id == e.id then
      if DistinctIds(c) then DistinctIdsUncons(c); DistinctIdsCons(e, c[1..]); [e] + c[1..]
      else [e] + c[1..]
    else
      var rest := Upsert(c[1..], e);
      if DistinctIds(c) then DistinctIdsUncons(c); DistinctIdsCons(c[0], rest); [c[0]] + rest
      else [c[0]] + rest
  }

  /** `Upsert(items)`: the items upserted one after the other. */
  function UpsertAll(c: seq<Entity>, items: seq<Entity>): (r: seq<Entity>)
    ensures DistinctIds(c) ==> DistinctIds(r)
    decreases |items|
  {
    if items == [] then c else UpsertAll(Upsert(c, items[0]), items[1..])
  }

  /** The last of `items` carrying `id`: the one a left-to-right upsert leaves behind. */
  function LastById(items: seq<Entity>, id: string): (r: Option<Entity>)
    ensures r.Some? ==> r.value in items && r.value.id == id
    ensures r.None? <==> !HasId(items, id)
    ensures r.Some? ==> exists i :: 0 <= i < |items| && items[i] == r.value && NoLaterId(items, i, id)
  {
    if items == [] then None
    else
      match LastById(items[1..], id)
      case Some(e) =>
        var i :| 0 <= i < |items[1..]| && items[1..][i] == e && NoLaterId(items[1..], i, id);
        assert items[i + 1] == e && NoLaterId(items, i + 1, id);
        Some(e)
      case None =>
        if items[0].id == id then
          assert NoLaterId(items, 0, id) by {
            forall j | 0 < j < |items| ensures items[j].id != id { assert items[j] in items[1..]; }
          }
          Some(items[0])
        else None
  }

  /** No item after position `i` carries `id`. */
  predicate NoLaterId(items: seq<Entity>, i: nat, id: string)
  {
    forall j :: i < j < |items| ==> items[j].id != id
  }

  /** `Delete(id)`: removes the entity stored under `id`. */
  function DeleteById(c: seq<Entity>, id: string): (r: seq<Entity>)
    ensures !HasId(r, id)
    ensures forall e :: e in r <==> e in c && e.id != id
    ensures DistinctIds(c) ==> DistinctIds(r)
  {
    Filter(c, (e: Entity) => e.id != id)
  }

  /** `DeleteMany(predicate)`: removes every entity satisfying `p`. */
  function DeleteMany(c: seq<Entity>, p: Entity -> bool): (r: seq<Entity>)
    ensures forall e :: e in r <==> e in c && !p(e)
    ensures DistinctIds(c) ==> DistinctIds(r)
  {
    Filter(c, (e: Entity) => !p(e))
  }

  /** `Insert(items)` into an empty collection (`DeleteAll` then `Insert`). */
  function ReplaceAll(c: seq<Entity>, items: seq<Entity>): (r: seq<Entity>)
    requires DistinctIds(items)
    ensures DistinctIds(r)
    ensures forall id :: FindById(r, id) == FindById(items, id)
  {
    var emptied := DeleteMany(c, (e: Entity) => true);
    assert emptied == [];
    emptied + items
  }

  lemma DistinctIdsUncons(c: seq<Entity>)
    requires DistinctIds(c) && c != []
    ensures DistinctIds(c[1..])
    ensures forall x :: x in c[1..] ==> x.id != c[0].id
  {
  }

  lemma DistinctIdsCons(e: Entity, rest: seq<Entity>)
    requires DistinctIds(rest)
    requires forall x :: x in rest ==> x.id != e.id
    ensures DistinctIds([e] + rest)
  {
    forall i, j | 0 <= i < j < |[e] + rest|
      ensures ([e] + rest)[i].id != ([e] + rest)[j].id
    {
      if i == 0 {
        assert ([e] + rest)[j] == rest[j - 1];
      }
    }
  }

  /** Upserting a list leaves, for each `Id`, the last item carrying it, and otherwise the old entity. */
  lemma {:induction false} UpsertAllLastWins(c: seq<Entity>, items: seq<Entity>, id: string)
    ensures FindById(UpsertAll(c, items), id)
            == match LastById(items, id) case Some(e) => Some(e) case None => FindById(c, id)
    decreases |items|
  {
    if items != [] {
      UpsertAllLastWins(Upsert(c, items[0]), items[1..], id);
    }
  }
}

=== FILE: entities.dfy ===
/**
 Vocabulary shared by every part of the model: the stored entity, the identity key
 the comparer looks at, C#'s nullable references, and the shape of a repository
 call's result (its value or new state, plus which stores it reached).
 */
module Entities {

  /** A nullable reference: `None` is C#'s `null`. */
  datatype Option<+T> = None | Some(value: T)

  /** A stored record: its runtime type name, its client-chosen `Id` and its payload. */
  datatype Entity = Entity(typeName: string, id: string, data: string)

  /** What identity is made of: the runtime type and the `Id`. */
  datatype Key = Key(typeName: string, id: string)

  function KeyOf(e: Entity): Key
  {
    Key(e.typeName, e.id)
  }

  function KeysOf(s: seq<Entity>): set<Key>
  {
    set e | e in s :: KeyOf(e)
  }

  /** The document store keeps `Id` unique within one collection. */
  predicate DistinctIds(s: seq<Entity>)
  {
    forall i, j :: 0 <= i < j < |s| ==> s[i].id != s[j].id
  }

  /** No two entities share a (type, `Id`) pair. */
  predicate DistinctKeys(s: seq<Entity>)
  {
    forall i, j :: 0 <= i < j < |s| ==> KeyOf(s[i]) != KeyOf(s[j])
  }

  predicate HasId(s: seq<Entity>, id: string)
  {
    exists e :: e in s && e.id == id
  }

  lemma DistinctIdsHaveDistinctKeys(s: seq<Entity>)
    requires DistinctIds(s)
    ensures DistinctKeys(s)
  {
  }

  /** The two stores of the outbox pattern: the synced baseline and the pending local writes. */
  datatype Side = Inbox | Outbox

  /** A read's answer together with the stores whose collection the call obtained, in order. */
  datatype Read<T> = Read(value: T, accessed: seq<Side>)

  /** A write's resulting state, the stores it obtained a collection from, and whether it threw. */
  datatype Write<S> = Write(state: S, accessed: seq<Side>, threw: bool)
}

=== FILE: identity.dfy ===
/**
 The default equality comparer used to merge the inbox and the outbox: two entities are
 the same logical record when they are the same reference, or when neither is null and
 both have the same runtime type and the same `Id`. Its hash looks at the `Id` only.
 */
module Identity {
  import opened Entities

  /**
   `Equals(x, y)` of the comparer. A Dafny value has no reference identity, so the
   reference test is modelled by value equality; every pair it accepts has the same type
   and `Id` anyway, so the answer is the one the source gives.
   */
  function Equals(x: Option<Entity>, y: Option<Entity>): (r: bool)
    ensures x == y ==> r
    ensures x.None? != y.None? ==> !r
    ensures x.Some? && y.Some? ==> (r <==> KeyOf(x.value) == KeyOf(y.value))
  {
    if x == y then true
    else if x.None? then false
    else if y.None? then false
    else if x.value.typeName != y.value.typeName then false
    else x.value.id == y.value.id
  }

  /**
   `GetHashCode(obj)`: the hash of the `Id` string. The string hash is randomised per
   process by the runtime, so it is a parameter here.
   */
  function Hash(e: Entity, stringHash: string -> int): int
  {
    stringHash(e.id)
  }

  lemma SameReferenceIsEqual(x: Option<Entity>)
    ensures Equals(x, x)
  {
  }

  lemma OneNullIsUnequal(e: Entity)
    ensures !Equals(None, Some(e))
    ensures !Equals(Some(e), None)
  {
  }

  lemma DifferentTypesAreUnequal(a: Entity, b: Entity)
    requires a.typeName != b.typeName
    ensures !Equals(Some(a), Some(b))
  {
  }

  lemma SameTypeAndIdAreEqual(a: Entity, b: Entity)
    requires a.typeName == b.typeName && a.id == b.id
    ensures Equals(Some(a), Some(b))
  {
  }

  /** The comparer is an equivalence relation, null included. */
  lemma IsEquivalence(x: Option<Entity>, y: Option<Entity>, z: Option<Entity>)
    ensures Equals(x, x)
    ensures Equals(x, y) == Equals(y, x)
    ensures Equals(x, y) && Equals(y, z) ==> Equals(x, z)
  {
  }

  /** The hash never separates two entities the comparer equates, whatever the string hash. */
  lemma EqualEntitiesHashAlike(a: Entity, b: Entity, stringHash: string -> int)
    requires Equals(Some(a), Some(b))
    ensures Hash(a, stringHash) == Hash(b, stringHash)
  {
  }

  /** The hash depends on the `Id` only: two types sharing an `Id` collide without being equal. */
  lemma HashIgnoresType(a: Entity, b: Entity, stringHash: string -> int)
    requires a.id == b.id
    ensures Hash(a, stringHash) == Hash(b, stringHash)
  {
  }
}

=== FILE: merge.dfy ===
/**
 The set union the outbox repository reads through: `first.Union(second, comparer)`
 yields the elements of `first` and then of `second`, skipping every element the
 comparer equates with one already yielded. With the identity comparer this means the
 outbox copy of a record wins and each (type, `Id`) appears once.
 */
module Merge {
  import opened Entities
  import Identity

  /**
   The elements of `s` in order, skipping any whose key is in `seen` or was yielded
   earlier; `seen` holds the keys of what the enumeration has already produced.
   */
  function Distinct(seen: set<Key>, s: seq<Entity>): (r: seq<Entity>)
    ensures forall x :: x in r ==> x in s && KeyOf(x) !in seen
    ensures forall x :: x in s ==> KeyOf(x) in seen || KeyOf(x) in KeysOf(r)
    ensures DistinctKeys(r)
    decreases |s|
  {
    if s == [] then []
    else if KeyOf(s[0]) in seen then Distinct(seen, s[1..])
    else
      var rest := Distinct(seen + {KeyOf(s[0])}, s[1..]);
      KeysCons(s[0], rest);
      [s[0]] + rest
  }

  /** `s[j]` is the first element of `s` with its key. */
  predicate FirstOfKey(s: seq<Entity>, j: int)
  {
    0 <= j < |s| && forall k :: 0 <= k < j ==> KeyOf(s[k]) != KeyOf(s[j])
  }

  /**
   The first element of `s` with a key outside `seen` is the one the enumeration
   keeps for that key; with the key-uniqueness of the result, no later duplicate
   can stand in for it.
   */
  lemma {:induction false} DistinctKeepsFirst(seen: set<Key>, s: seq<Entity>)
    ensures forall j :: 0 <= j < |s| && KeyOf(s[j]) !in seen && FirstOfKey(s, j) ==> s[j] in Distinct(seen, s)
    decreases |s|
  {
    if s != [] {
      var seen' := if KeyOf(s[0]) in seen then seen else seen + {KeyOf(s[0])};
      DistinctKeepsFirst(seen', s[1..]);
      forall j | 0 < j < |s| && KeyOf(s[j]) !in seen && FirstOfKey(s, j)
        ensures s[j] in Distinct(seen, s)
      {
        assert s[j] == s[1..][j - 1];
        assert KeyOf(s[0]) != KeyOf(s[j]);
        forall k | 0 <= k < j - 1 ensures KeyOf(s[1..][k]) != KeyOf(s[1..][j - 1]) {
          assert s[1..][k] == s[k + 1];
        }
        assert FirstOfKey(s[1..], j - 1);
      }
    }
  }

  lemma KeysCons(e: Entity, rest: seq<Entity>)
    requires DistinctKeys(rest)
    requires forall x :: x in rest ==> KeyOf(x) != KeyOf(e)
    ensures DistinctKeys([e] + rest)
    ensures KeysOf([e] + rest) == {KeyOf(e)} + KeysOf(rest)
  {
    forall i, j | 0 <= i < j < |[e] + rest|
      ensures KeyOf(([e] + rest)[i]) != KeyOf(([e] + rest)[j])
    {
      if i == 0 {
        assert ([e] + rest)[j] == rest[j - 1];
      }
    }
  }

  /** `first.Union(second, comparer)`. */
  function Union(first: seq<Entity>, second: seq<Entity>): (r: seq<Entity>)
    ensures forall x :: x in r ==> x in first || x in second
    ensures KeysOf(r) == KeysOf(first) + KeysOf(second)
    ensures DistinctKeys(r)
  {
    var r := Distinct({}, first + second);
    assert forall x :: x in first + second <==> x in first || x in second;
    r
  }

  /** The entities of `s` whose key is not in `keys`, in order. */
  function Without(s: seq<Entity>, keys: set<Key>): (r: seq<Entity>)
    ensures forall x :: x in r <==> x in s && KeyOf(x) !in keys
  {
    if s == [] then []
    else if KeyOf(s[0]) in keys then Without(s[1..], keys)
    else [s[0]] + Without(s[1..], keys)
  }

  /** Reference definition of the merged read: every outbox item, then the inbox items the outbox lacks. */
  function OutboxWins(outbox: seq<Entity>, inbox: seq<Entity>): seq<Entity>
  {
    outbox + Without(inbox, KeysOf(outbox))
  }

  lemma {:induction false} DistinctAppend(seen: set<Key>, a: seq<Entity>, b: seq<Entity>)
    ensures Distinct(seen, a + b) == Distinct(seen, a) + Distinct(seen + KeysOf(a), b)
    decreases |a|
  {
    if a == [] {
      assert a + b == b;
      assert Distinct(seen, a) == [];
      assert seen + KeysOf(a) == seen;
    } else {
      assert (a + b)[0] == a[0];
      assert (a + b)[1..] == a[1..] + b;
      assert KeysOf(a) == {KeyOf(a[0])} + KeysOf(a[1..]) by {
        assert a == [a[0]] + a[1..];
      }
      if KeyOf(a[0]) in seen {
        DistinctAppend(seen, a[1..], b);
        assert seen + KeysOf(a) == seen + KeysOf(a[1..]);
      } else {
        DistinctAppend(seen + {KeyOf(a[0])}, a[1..], b);
        assert seen + KeysOf(a) == seen + {KeyOf(a[0])} + KeysOf(a[1..]);
      }
    }
  }

  lemma {:induction false} DistinctOfDistinctKeys(seen: set<Key>, s: seq<Entity>)
    requires DistinctKeys(s)
    ensures Distinct(seen, s) == Without(s, seen)
    decreases |s|
  {
    if s != [] {
      assert DistinctKeys(s[1..]) by {
        forall i, j | 0 <= i < j < |s[1..]| ensures KeyOf(s[1..][i]) != KeyOf(s[1..][j]) {
          assert s[1..][i] == s[i + 1] && s[1..][j] == s[j + 1];
        }
      }
      if KeyOf(s[0]) in seen {
        DistinctOfDistinctKeys(seen, s[1..]);
      } else {
        DistinctOfDistinctKeys(seen + {KeyOf(s[0])}, s[1..]);
        WithoutSkipsAbsentKey(s[1..], seen, KeyOf(s[0])) by {
          forall x | x in s[1..] ensures KeyOf(x) != KeyOf(s[0]) {
            var k :| 1 <= k < |s| && s[k] == x;
          }
        }
      }
    }
  }

  lemma {:induction false} WithoutSkipsAbsentKey(s: seq<Entity>, keys: set<Key>, k: Key)
    requires forall x :: x in s ==> KeyOf(x) != k
    ensures Without(s, keys + {k}) == Without(s, keys)
    decreases |s|
  {
    if s != [] {
      assert s[0] in s;
      WithoutSkipsAbsentKey(s[1..], keys, k) by {
        forall x | x in s[1..] ensures KeyOf(x) != k { assert x in s; }
      }
    }
  }

  lemma {:induction false} WithoutNothing(s: seq<Entity>)
    ensures Without(s, {}) == s
    decreases |s|
  {
    if s != [] {
      WithoutNothing(s[1..]);
    }
  }

  /**
   When each store holds every key at most once, the union is exactly the outbox
   followed by the inbox entities whose key the outbox does not hold.
   */
  lemma UnionIsOutboxWins(outbox: seq<Entity>, inbox: seq<Entity>)
    requires DistinctKeys(outbox) && DistinctKeys(inbox)
    ensures Union(outbox, inbox) == OutboxWins(outbox, inbox)
  {
    DistinctAppend({}, outbox, inbox);
    DistinctOfDistinctKeys({}, outbox);
    WithoutNothing(outbox);
    DistinctOfDistinctKeys(KeysOf(outbox), inbox);
    assert {} + KeysOf(outbox) == KeysOf(outbox);
  }

  /** No two results are equal under the identity comparer, and every input has its representative. */
  lemma UnionDeduplicates(first: seq<Entity>, second: seq<Entity>)
    ensures forall i, j :: 0 <= i < j < |Union(first, second)| ==>
              !Identity.Equals(Some(Union(first, second)[i]), Some(Union(first, second)[j]))
    ensures forall x :: x in first + second ==>
              exists y :: y in Union(first, second) && Identity.Equals(Some(x), Some(y))
    ensures forall y :: y in Union(first, second) ==> y in first + second
  {
    var r := Union(first, second);
    forall x | x in first + second
      ensures exists y :: y in r && Identity.Equals(Some(x), Some(y))
    {
      assert KeyOf(x) in KeysOf(r);
      var y :| y in r && KeyOf(y) == KeyOf(x);
      assert Identity.Equals(Some(x), Some(y));
    }
  }

  /**
   Outbox wins: every outbox entity is in the merged read, and a merged entity whose
   identity the outbox holds is the outbox's copy.
   */
  lemma OutboxCopyWins(outbox: seq<Entity>, inbox: seq<Entity>)
    requires DistinctKeys(outbox) && DistinctKeys(inbox)
    ensures forall x :: x in outbox ==> x in Union(outbox, inbox)
    ensures forall y :: y in Union(outbox, inbox) && KeyOf(y) in KeysOf(outbox) ==> y in outbox
    ensures forall y :: y in Union(outbox, inbox) && y !in outbox ==> y in inbox
    ensures |Union(outbox, inbox)| == |outbox| + |Without(inbox, KeysOf(outbox))|
  {
    UnionIsOutboxWins(outbox, inbox);
  }

  /** An inbox record whose type differs from the outbox record with the same `Id` is kept too. */
  lemma DifferentTypesBothKept(o: Entity, i: Entity)
    requires o.id == i.id && o.typeName != i.typeName
    ensures Union([o], [i]) == [o, i]
  {
    UnionIsOutboxWins([o], [i]);
    assert KeysOf([o]) == {KeyOf(o)};
    assert [i][1..] == [];
    assert Without([i], {KeyOf(o)}) == [i];
  }
}

=== FILE: outbox.dfy ===
/**
 The dual-store repository (`OutboxRepository`): the inbox holds the synced baseline and the
 outbox the pending local changes. Reads consult both and let the outbox copy of a record
 win; upserts go to the inbox, `UpdateItem` stages a change in the outbox, deletes reach
 both, and each store's collection can be dropped on its own.
 */
module OutboxRepository {
  import opened Entities
  import Engine
  import Merge
  import StoreHandle
  import RepositoryBase
  import Repository

  /** The contents of the inbox and the outbox database. */
  datatype Stores = Stores(inbox: Engine.Db, outbox: Engine.Db)

  predicate ValidStores(s: Stores)
  {
    Engine.ValidDb(s.inbox) && Engine.ValidDb(s.outbox)
  }

  function InboxColl(s: Stores, cfg: RepositoryBase.Config): seq<Entity>
  {
    Engine.Coll(s.inbox, RepositoryBase.CollectionOf(cfg))
  }

  function OutboxColl(s: Stores, cfg: RepositoryBase.Config): seq<Entity>
  {
    Engine.Coll(s.outbox, RepositoryBase.CollectionOf(cfg))
  }

  /** `GetAll()`: outbox items, then inbox items, deduplicated by the identity comparer. */
  function GetAll(s: Stores, cfg: RepositoryBase.Config): (r: Read<seq<Entity>>)
    ensures r.accessed == [Inbox, Outbox]
    ensures DistinctKeys(r.value)
    ensures forall e :: e in r.value ==> e in OutboxColl(s, cfg) || e in InboxColl(s, cfg)
    ensures forall e :: e in OutboxColl(s, cfg) + InboxColl(s, cfg) ==> KeyOf(e) in KeysOf(r.value)
  {
    Read(Merge.Union(OutboxColl(s, cfg), InboxColl(s, cfg)), [Inbox, Outbox])
  }

  /** `GetForId(id)`: the outbox entity under `id` if there is one, else the inbox's, else null. */
  function GetForId(s: Stores, cfg: RepositoryBase.Config, id: string): (r: Read<Option<Entity>>)
    ensures HasId(OutboxColl(s, cfg), id) ==>
              r.accessed == [Outbox] && r.value.Some? && r.value.value in OutboxColl(s, cfg)
    ensures !HasId(OutboxColl(s, cfg), id) ==>
              r.accessed == [Outbox, Inbox] && (r.value.Some? ==> r.value.value in InboxColl(s, cfg))
    ensures r.value.Some? ==> r.value.value.id == id
    ensures r.value.None? <==> !HasId(OutboxColl(s, cfg), id) && !HasId(InboxColl(s, cfg), id)
  {
    var pending := Engine.FindById(OutboxColl(s, cfg), id);
    if pending.Some? then Read(pending, [Outbox])
    else Read(Engine.FindById(InboxColl(s, cfg), id), [Outbox, Inbox])
  }

  /** `FindItem(predicate)`: an outbox entity satisfying `p` if there is one, else an inbox one, else null. */
  function FindItem(s: Stores, cfg: RepositoryBase.Config, p: Entity -> bool): (r: Read<Option<Entity>>)
    ensures (exists e :: e in OutboxColl(s, cfg) && p(e)) ==>
              r.accessed == [Outbox] && r.value.Some? && r.value.value in OutboxColl(s, cfg)
    ensures (forall e :: e in OutboxColl(s, cfg) ==> !p(e)) ==>
              r.accessed == [Outbox, Inbox] && (r.value.Some? ==> r.value.value in InboxColl(s, cfg))
    ensures r.value.Some? ==> p(r.value.value)
    ensures r.value.None? <==> forall e :: e in OutboxColl(s, cfg) + InboxColl(s, cfg) ==> !p(e)
  {
    var pending := Engine.FindOne(OutboxColl(s, cfg), p);
    if pending.Some? then Read(pending, [Outbox])
    else Read(Engine.FindOne(InboxColl(s, cfg), p), [Outbox, Inbox])
  }

  /** `QueryItems(predicate)`: each store filtered on its own, then merged like `GetAll()`. */
  function QueryItems(s: Stores, cfg: RepositoryBase.Config, p: Entity -> bool): (r: Read<seq<Entity>>)
    ensures r.accessed == [Inbox, Outbox]
    ensures DistinctKeys(r.value)
    ensures forall e :: e in r.value ==> p(e) && (e in OutboxColl(s, cfg) || e in InboxColl(s, cfg))
    ensures forall e :: e in OutboxColl(s, cfg) + InboxColl(s, cfg) && p(e) ==> KeyOf(e) in KeysOf(r.value)
    ensures ValidStores(s) ==>
              r.value == Merge.OutboxWins(Engine.Filter(OutboxColl(s, cfg), p), Engine.Filter(InboxColl(s, cfg), p))
  {
    var outboxHits := Engine.Filter(OutboxColl(s, cfg), p);
    var inboxHits := Engine.Filter(InboxColl(s, cfg), p);
    if ValidStores(s) then
      DistinctIdsHaveDistinctKeys(outboxHits);
      DistinctIdsHaveDistinctKeys(inboxHits);
      Merge.UnionIsOutboxWins(outboxHits, inboxHits);
      Read(Merge.Union(outboxHits, inboxHits), [Inbox, Outbox])
    else
      Read(Merge.Union(outboxHits, inboxHits), [Inbox, Outbox])
  }

  /** `UpsertItem(item)`: the single-store upsert applied to the inbox; the outbox is untouched. */
  function UpsertItem(s: Stores, cfg: RepositoryBase.Config, item: Option<Entity>): (r: Write<Stores>)
    ensures r.state.outbox == s.outbox
    ensures item.None? ==> r == Write(s, [], false)
    ensures item.Some? ==> r.accessed == [Inbox] && !r.threw
    ensures item.Some? ==> Engine.FindById(InboxColl(r.state, cfg), item.value.id) == item
    ensures item.Some? ==> forall id :: id != item.value.id ==>
              Engine.FindById(InboxColl(r.state, cfg), id) == Engine.FindById(InboxColl(s, cfg), id)
    ensures forall n :: n != RepositoryBase.CollectionOf(cfg) ==> Engine.Coll(r.state.inbox, n) == Engine.Coll(s.inbox, n)
    ensures r.state.inbox == Repository.UpsertItem(s.inbox, cfg, item).state
    ensures ValidStores(s) ==> ValidStores(r.state)
  {
    var w := Repository.UpsertItem(s.inbox, cfg, item);
    Write(s.(inbox := w.state), w.accessed, w.threw)
  }

  /** `UpsertAllItems(models, dropExistingRecords)`: the single-store version applied to the inbox. */
  function UpsertAllItems(s: Stores, cfg: RepositoryBase.Config, models: Option<seq<Entity>>,
                          dropExistingRecords: bool): (r: Write<Stores>)
    ensures r.state.outbox == s.outbox
    ensures models.None? ==> r == Write(s, [], false)
    ensures models.Some? ==> r.accessed == [Inbox]
    ensures r.threw <==> models.Some? && dropExistingRecords && !DistinctIds(models.value)
    ensures models.Some? && dropExistingRecords && !r.threw ==>
              forall id :: Engine.FindById(InboxColl(r.state, cfg), id) == Engine.FindById(models.value, id)
    ensures r.threw ==> InboxColl(r.state, cfg) == []
    ensures forall n :: n != RepositoryBase.CollectionOf(cfg) ==> Engine.Coll(r.state.inbox, n) == Engine.Coll(s.inbox, n)
    ensures r.state.inbox == Repository.UpsertAllItems(s.inbox, cfg, models, dropExistingRecords).state
    ensures ValidStores(s) ==> ValidStores(r.state)
  {
    var w := Repository.UpsertAllItems(s.inbox, cfg, models, dropExistingRecords);
    Write(s.(inbox := w.state), w.accessed, w.threw)
  }

  /**
   `UpdateItem(model)`: stages the model in the outbox; the inbox is untouched. There is no
   null guard, so a null model reaches the engine's upsert, which throws.
   */
  function UpdateItem(s: Stores, cfg: RepositoryBase.Config, model: Option<Entity>): (r: Write<Stores>)
    ensures r.accessed == [Outbox]
    ensures r.state.inbox == s.inbox
    ensures r.threw <==> model.None?
    ensures model.None? ==> r.state == s
    ensures model.Some? ==> Engine.FindById(OutboxColl(r.state, cfg), model.value.id) == model
    ensures model.Some? ==> forall id :: id != model.value.id ==>
              Engine.FindById(OutboxColl(r.state, cfg), id) == Engine.FindById(OutboxColl(s, cfg), id)
    ensures forall n :: n != RepositoryBase.CollectionOf(cfg) ==> Engine.Coll(r.state.outbox, n) == Engine.Coll(s.outbox, n)
    ensures ValidStores(s) ==> ValidStores(r.state)
  {
    match model
    case None => Write(s, [Outbox], true)
    case Some(e) =>
      var w := Repository.UpsertItem(s.outbox, cfg, Some(e));
      Write(s.(outbox := w.state), [Outbox], false)
  }

  /** `DeleteItem(id)`: deletes `id` from the inbox and from the outbox. */
  function DeleteItem(s: Stores, cfg: RepositoryBase.Config, id: string): (r: Write<Stores>)
    ensures r.accessed == [Inbox, Outbox] && !r.threw
    ensures forall e :: e in InboxColl(r.state, cfg) <==> e in InboxColl(s, cfg) && e.id != id
    ensures forall e :: e in OutboxColl(r.state, cfg) <==> e in OutboxColl(s, cfg) && e.id != id
    ensures forall n :: n != RepositoryBase.CollectionOf(cfg) ==>
              Engine.Coll(r.state.inbox, n) == Engine.Coll(s.inbox, n) && Engine.Coll(r.state.outbox, n) == Engine.Coll(s.outbox, n)
    ensures ValidStores(s) ==> ValidStores(r.state)
  {
    var inbox := Repository.DeleteItem(s.inbox, cfg, id);
    var outbox := Repository.DeleteItem(s.outbox, cfg, id);
    Write(Stores(inbox.state, outbox.state), [Inbox, Outbox], false)
  }

  /** `DeleteMany(predicate)`: deletes every entity satisfying `p` from both stores. */
  function DeleteMany(s: Stores, cfg: RepositoryBase.Config, p: Entity -> bool): (r: Write<Stores>)
    ensures r.accessed == [Inbox, Outbox] && !r.threw
    ensures forall e :: e in InboxColl(r.state, cfg) <==> e in InboxColl(s, cfg) && !p(e)
    ensures forall e :: e in OutboxColl(r.state, cfg) <==> e in OutboxColl(s, cfg) && !p(e)
    ensures forall n :: n != RepositoryBase.CollectionOf(cfg) ==>
              Engine.Coll(r.state.inbox, n) == Engine.Coll(s.inbox, n) && Engine.Coll(r.state.outbox, n) == Engine.Coll(s.outbox, n)
    ensures ValidStores(s) ==> ValidStores(r.state)
  {
    var inbox := Repository.DeleteMany(s.inbox, cfg, p);
    var outbox := Repository.DeleteMany(s.outbox, cfg, p);
    Write(Stores(inbox.state, outbox.state), [Inbox, Outbox], false)
  }

  /** A drop on one store: how the call ended and both stores' contents afterwards. */
  datatype StoresDropped = StoresDropped(step: StoreHandle.Step, stores: Stores)

  /** `DropCollection()`: drops the repository's collection in the inbox only. */
  function DropCollection(h: StoreHandle.Handle, s: Stores, cfg: RepositoryBase.Config,
                          first: StoreHandle.OpenOutcome, second: StoreHandle.OpenOutcome,
                          outcome: StoreHandle.DropOutcome, indexOk: bool): (r: StoresDropped)
    ensures r.stores.outbox == s.outbox
    ensures StoreHandle.GetDatabaseInstance(h, first, second).outcome == StoreHandle.Done ==>
              r.stores.inbox == StoreHandle.DropFromContent(s.inbox, RepositoryBase.CollectionOf(cfg), outcome)
    ensures StoreHandle.GetDatabaseInstance(h, first, second).outcome != StoreHandle.Done ==> r.stores == s
    ensures StoreHandle.GetDatabaseInstance(h, first, second).outcome == StoreHandle.Done ==>
              (r.step.outcome == StoreHandle.Done <==> indexOk)
    ensures StoreHandle.GetDatabaseInstance(h, first, second).outcome != StoreHandle.Done ==>
              r.step == StoreHandle.GetDatabaseInstance(h, first, second)
  {
    var d := Repository.DropCollection(h, s.inbox, cfg, first, second, outcome, indexOk);
    StoresDropped(d.step, s.(inbox := d.content))
  }

  /** `DropOutboxCollection()`: drops the repository's collection in the outbox only. */
  function DropOutboxCollection(h: StoreHandle.Handle, s: Stores, cfg: RepositoryBase.Config,
                                first: StoreHandle.OpenOutcome, second: StoreHandle.OpenOutcome,
                                outcome: StoreHandle.DropOutcome, indexOk: bool): (r: StoresDropped)
    ensures r.stores.inbox == s.inbox
    ensures StoreHandle.GetDatabaseInstance(h, first, second).outcome == StoreHandle.Done ==>
              r.stores.outbox == StoreHandle.DropFromContent(s.outbox, RepositoryBase.CollectionOf(cfg), outcome)
    ensures StoreHandle.GetDatabaseInstance(h, first, second).outcome != StoreHandle.Done ==> r.stores == s
    ensures StoreHandle.GetDatabaseInstance(h, first, second).outcome == StoreHandle.Done ==>
              (r.step.outcome == StoreHandle.Done <==> indexOk)
    ensures StoreHandle.GetDatabaseInstance(h, first, second).outcome != StoreHandle.Done ==>
              r.step == StoreHandle.GetDatabaseInstance(h, first, second)
  {
    var d := Repository.DropCollection(h, s.outbox, cfg, first, second, outcome, indexOk);
    StoresDropped(d.step, s.(outbox := d.content))
  }

  // ---------------------------------------------------------------------------
  // Properties relating the calls

  /** On well-formed stores the merged read is every outbox item, then the inbox items the outbox lacks. */
  lemma GetAllIsOutboxWins(s: Stores, cfg: RepositoryBase.Config)
    requires ValidStores(s)
    ensures GetAll(s, cfg).value == Merge.OutboxWins(OutboxColl(s, cfg), InboxColl(s, cfg))
  {
    DistinctIdsHaveDistinctKeys(OutboxColl(s, cfg));
    DistinctIdsHaveDistinctKeys(InboxColl(s, cfg));
    Merge.UnionIsOutboxWins(OutboxColl(s, cfg), InboxColl(s, cfg));
  }

  /** `GetForId(id)` finds something exactly when `GetAll()` holds an entity with that `Id`, and it is one of them. */
  lemma GetForIdAgreesWithGetAll(s: Stores, cfg: RepositoryBase.Config, id: string)
    requires ValidStores(s)
    ensures GetForId(s, cfg, id).value.Some? <==> HasId(GetAll(s, cfg).value, id)
    ensures GetForId(s, cfg, id).value.Some? ==> GetForId(s, cfg, id).value.value in GetAll(s, cfg).value
  {
    var outbox := OutboxColl(s, cfg);
    var inbox := InboxColl(s, cfg);
    var found := GetForId(s, cfg, id).value;
    GetAllIsOutboxWins(s, cfg);
    if found.Some? {
      var e := found.value;
      if !HasId(outbox, id) {
        assert KeyOf(e) !in KeysOf(outbox);
        assert e in Merge.Without(inbox, KeysOf(outbox));
      }
      assert e in GetAll(s, cfg).value;
    }
  }

  /** A staged change is what `GetForId` returns next, from the outbox alone. */
  lemma UpdateThenGet(s: Stores, cfg: RepositoryBase.Config, e: Entity)
    ensures GetForId(UpdateItem(s, cfg, Some(e)).state, cfg, e.id) == Read(Some(e), [Outbox])
  {
  }

  /** A staged change shows in the merged read, whatever the inbox holds for the same record. */
  lemma UpdateThenGetAll(s: Stores, cfg: RepositoryBase.Config, e: Entity)
    requires ValidStores(s)
    ensures e in GetAll(UpdateItem(s, cfg, Some(e)).state, cfg).value
  {
    var after := UpdateItem(s, cfg, Some(e)).state;
    GetAllIsOutboxWins(after, cfg);
    assert e in OutboxColl(after, cfg);
  }

  /** While the outbox holds a change for `Id`, an upsert of that `Id` into the inbox is invisible to `GetForId`. */
  lemma UpsertShadowedByOutbox(s: Stores, cfg: RepositoryBase.Config, e: Entity)
    requires HasId(OutboxColl(s, cfg), e.id)
    ensures GetForId(UpsertItem(s, cfg, Some(e)).state, cfg, e.id) == GetForId(s, cfg, e.id)
  {
  }

  /** After a delete, neither store's copy is visible to either lookup. */
  lemma DeleteThenGet(s: Stores, cfg: RepositoryBase.Config, id: string)
    ensures var after := DeleteItem(s, cfg, id).state;
            GetForId(after, cfg, id).value == None && !HasId(GetAll(after, cfg).value, id)
  {
  }

  /**
   Batch upserts without the drop flag: an `Id` the outbox holds still reads as the outbox
   copy; any other `Id` reads as the last batch item carrying it, else as before.
   */
  lemma UpsertAllThenGet(s: Stores, cfg: RepositoryBase.Config, items: seq<Entity>, id: string)
    ensures var after := UpsertAllItems(s, cfg, Some(items), false).state;
            GetForId(after, cfg, id).value
            == if HasId(OutboxColl(s, cfg), id) then GetForId(s, cfg, id).value
               else match Engine.LastById(items, id) case Some(e) => Some(e) case None => GetForId(s, cfg, id).value
  {
    Repository.UpsertAllLastWins(s.inbox, cfg, items, id);
  }

  /** `FindItem(p)` is null exactly when `QueryItems(p)` is empty, and otherwise one of its results. */
  lemma FindItemAgreesWithQuery(s: Stores, cfg: RepositoryBase.Config, p: Entity -> bool)
    requires ValidStores(s)
    ensures FindItem(s, cfg, p).value.None? <==> QueryItems(s, cfg, p).value == []
    ensures FindItem(s, cfg, p).value.Some? ==> FindItem(s, cfg, p).value.value in QueryItems(s, cfg, p).value
  {
    var outboxHits := Engine.Filter(OutboxColl(s, cfg), p);
    var inboxHits := Engine.Filter(InboxColl(s, cfg), p);
    var found := FindItem(s, cfg, p).value;
    if found.Some? {
      var e := found.value;
      if e !in OutboxColl(s, cfg) {
        assert outboxHits == [];
        Merge.WithoutNothing(inboxHits);
        assert e in inboxHits;
      }
    } else {
      assert outboxHits == [] && inboxHits == [];
    }
  }

  /** A query whose predicate every stored entity satisfies is exactly `GetAll()`. */
  lemma QueryMatchingAllIsGetAll(s: Stores, cfg: RepositoryBase.Config, p: Entity -> bool)
    requires forall e :: e in OutboxColl(s, cfg) + InboxColl(s, cfg) ==> p(e)
    ensures QueryItems(s, cfg, p).value == GetAll(s, cfg).value
  {
    Engine.FilterKeepsAll(OutboxColl(s, cfg), p);
    Engine.FilterKeepsAll(InboxColl(s, cfg), p);
  }

  /** After `DeleteMany(p)`, neither store holds a match: `QueryItems(p)` is empty and `GetAll()` has none. */
  lemma DeleteManyThenQuery(s: Stores, cfg: RepositoryBase.Config, p: Entity -> bool)
    ensures var after := DeleteMany(s, cfg, p).state;
            && QueryItems(after, cfg, p).value == []
            && forall e :: e in GetAll(after, cfg).value ==> !p(e)
  {
  }

  /** After a successful inbox drop, the merged read is exactly the outbox collection. */
  lemma DropThenGetAll(h: StoreHandle.Handle, s: Stores, cfg: RepositoryBase.Config,
                       first: StoreHandle.OpenOutcome, second: StoreHandle.OpenOutcome, indexOk: bool)
    requires ValidStores(s)
    requires StoreHandle.GetDatabaseInstance(h, first, second).outcome == StoreHandle.Done
    ensures GetAll(DropCollection(h, s, cfg, first, second, StoreHandle.DropSucceeds, indexOk).stores, cfg).value
            == OutboxColl(s, cfg)
  {
    var after := DropCollection(h, s, cfg, first, second, StoreHandle.DropSucceeds, indexOk).stores;
    GetAllIsOutboxWins(after, cfg);
    assert InboxColl(after, cfg) == [];
  }

  /** After a successful outbox drop, the merged read is exactly the inbox collection. */
  lemma DropOutboxThenGetAll(h: StoreHandle.Handle, s: Stores, cfg: RepositoryBase.Config,
                             first: StoreHandle.OpenOutcome, second: StoreHandle.OpenOutcome, indexOk: bool)
    requires ValidStores(s)
    requires StoreHandle.GetDatabaseInstance(h, first, second).outcome == StoreHandle.Done
    ensures GetAll(DropOutboxCollection(h, s, cfg, first, second, StoreHandle.DropSucceeds, indexOk).stores, cfg).value
            == InboxColl(s, cfg)
  {
    var after := DropOutboxCollection(h, s, cfg, first, second, StoreHandle.DropSucceeds, indexOk).stores;
    GetAllIsOutboxWins(after, cfg);
    assert OutboxColl(after, cfg) == [] && KeysOf(OutboxColl(after, cfg)) == {};
    assert InboxColl(after, cfg) == InboxColl(s, cfg);
    Merge.WithoutNothing(InboxColl(s, cfg));
  }

  /**
   Each store is filtered before the merge, so a query can return the inbox copy of a record
   whose outbox copy no longer matches, although `GetAll()` yields only the outbox copy.
   */
  lemma QueryCanReturnShadowedInboxCopy(cfg: RepositoryBase.Config)
    ensures var name := RepositoryBase.CollectionOf(cfg);
            var staged := Entity("TestRepositoryEntity", "id1", "changed");
            var synced := Entity("TestRepositoryEntity", "id1", "original");
            var s := Stores(map[name := [synced]], map[name := [staged]]);
            var p := (e: Entity) => e.data == "original";
            && QueryItems(s, cfg, p).value == [synced]
            && GetAll(s, cfg).value == [staged]
  {
    var name := RepositoryBase.CollectionOf(cfg);
    var staged := Entity("TestRepositoryEntity", "id1", "changed");
    var synced := Entity("TestRepositoryEntity", "id1", "original");
    var p := (e: Entity) => e.data == "original";
    assert Engine.Filter([staged], p) == [];
    assert Engine.Filter([synced], p) == [synced];
    assert [] + [synced] == [synced];
    assert Merge.Distinct({}, [synced]) == [synced];
    assert [staged] + [synced] == [staged, synced];
    assert Merge.Distinct({}, [staged, synced]) == [staged];
  }

  /**
   The merge scenario of the repository's own tests: outbox `id1`, `id2` and inbox `id2`,
   `id3` of one type give three results, two from the outbox and one from the inbox.
   */
  lemma MergeScenario(cfg: RepositoryBase.Config)
    ensures var name := RepositoryBase.CollectionOf(cfg);
            var o1 := Entity("TestRepositoryEntity", "id1", "outbox");
            var o2 := Entity("TestRepositoryEntity", "id2", "outbox");
            var i2 := Entity("TestRepositoryEntity", "id2", "inbox");
            var i3 := Entity("TestRepositoryEntity", "id3", "inbox");
            var s := Stores(map[name := [i2, i3]], map[name := [o1, o2]]);
            GetAll(s, cfg).value == [o1, o2, i3]
  {
    var o1 := Entity("TestRepositoryEntity", "id1", "outbox");
    var o2 := Entity("TestRepositoryEntity", "id2", "outbox");
    var i2 := Entity("TestRepositoryEntity", "id2", "inbox");
    var i3 := Entity("TestRepositoryEntity", "id3", "inbox");
    var name := RepositoryBase.CollectionOf(cfg);
    var s := Stores(map[name := [i2, i3]], map[name := [o1, o2]]);
    assert OutboxColl(s, cfg) == [o1, o2] && InboxColl(s, cfg) == [i2, i3];
    Merge.UnionIsOutboxWins([o1, o2], [i2, i3]);
    var keys := KeysOf([o1, o2]);
    assert keys == {KeyOf(o1), KeyOf(o2)};
    assert [i2, i3][1..] == [i3] && [i3][1..] == [];
    assert Merge.Without([i3], keys) == [i3];
    assert Merge.Without([i2, i3], keys) == [i3];
  }
}

=== FILE: repository.dfy ===
/**
 The single-store repository (`Repository`): every call works on the repository's
 collection in the inbox database. A call's database contents go in and, for writes, come
 out; the result records which stores the call obtained a collection from, which is where
 the lazy open of `StoreHandle.GetDatabaseInstance` would happen.
 */
module Repository {
  import opened Entities
  import Engine
  import StoreHandle
  import RepositoryBase

  /** `GetAll()`: the whole collection. */
  function GetAll(db: Engine.Db, cfg: RepositoryBase.Config): (r: Read<seq<Entity>>)
    ensures r.accessed == [Inbox]
    ensures forall e :: e in r.value <==> e in Engine.Coll(db, RepositoryBase.CollectionOf(cfg))
    ensures Engine.ValidDb(db) ==> DistinctIds(r.value)
  {
    Read(Engine.Coll(db, RepositoryBase.CollectionOf(cfg)), [Inbox])
  }

  /** `GetForId(id)`: the entity stored under `id`, or null. */
  function GetForId(db: Engine.Db, cfg: RepositoryBase.Config, id: string): (r: Read<Option<Entity>>)
    ensures r.accessed == [Inbox]
    ensures r.value.Some? ==> r.value.value.id == id && r.value.value in Engine.Coll(db, RepositoryBase.CollectionOf(cfg))
    ensures r.value.None? <==> !HasId(Engine.Coll(db, RepositoryBase.CollectionOf(cfg)), id)
  {
    Read(Engine.FindById(Engine.Coll(db, RepositoryBase.CollectionOf(cfg)), id), [Inbox])
  }

  /** `FindItem(predicate)`: an entity satisfying `p`, or null. */
  function FindItem(db: Engine.Db, cfg: RepositoryBase.Config, p: Entity -> bool): (r: Read<Option<Entity>>)
    ensures r.accessed == [Inbox]
    ensures r.value.Some? ==> p(r.value.value) && r.value.value in Engine.Coll(db, RepositoryBase.CollectionOf(cfg))
    ensures r.value.None? <==> forall e :: e in Engine.Coll(db, RepositoryBase.CollectionOf(cfg)) ==> !p(e)
  {
    Read(Engine.FindOne(Engine.Coll(db, RepositoryBase.CollectionOf(cfg)), p), [Inbox])
  }

  /** `QueryItems(predicate)`: every entity satisfying `p`, in stored order. */
  function QueryItems(db: Engine.Db, cfg: RepositoryBase.Config, p: Entity -> bool): (r: Read<seq<Entity>>)
    ensures r.accessed == [Inbox]
    ensures forall e :: e in r.value <==> e in Engine.Coll(db, RepositoryBase.CollectionOf(cfg)) && p(e)
    ensures |r.value| <= |Engine.Coll(db, RepositoryBase.CollectionOf(cfg))|
  {
    Read(Engine.Filter(Engine.Coll(db, RepositoryBase.CollectionOf(cfg)), p), [Inbox])
  }

  /** `UpsertItem(item)`: a null item is ignored without touching the store; otherwise insert or replace by `Id`. */
  function UpsertItem(db: Engine.Db, cfg: RepositoryBase.Config, item: Option<Entity>): (r: Write<Engine.Db>)
    ensures !r.threw
    ensures item.None? ==> r == Write(db, [], false)
    ensures item.Some? ==> r.accessed == [Inbox]
    ensures item.Some? ==> Engine.FindById(Engine.Coll(r.state, RepositoryBase.CollectionOf(cfg)), item.value.id) == item
    ensures item.Some? ==> forall id :: id != item.value.id ==>
              Engine.FindById(Engine.Coll(r.state, RepositoryBase.CollectionOf(cfg)), id)
              == Engine.FindById(Engine.Coll(db, RepositoryBase.CollectionOf(cfg)), id)
    ensures forall n :: n != RepositoryBase.CollectionOf(cfg) ==> Engine.Coll(r.state, n) == Engine.Coll(db, n)
    ensures Engine.ValidDb(db) ==> Engine.ValidDb(r.state)
  {
    match item
    case None => Write(db, [], false)
    case Some(e) =>
      var name := RepositoryBase.CollectionOf(cfg);
      Write(Engine.Put(db, name, Engine.Upsert(Engine.Coll(db, name), e)), [Inbox], false)
  }

  /**
   `UpsertAllItems(items, dropExistingRecords)`: a null list is ignored; with the drop flag the
   collection is emptied and the items inserted, which the engine refuses as a whole when two
   items share an `Id` (the emptying stays done); without it the items are upserted in order.
   */
  function UpsertAllItems(db: Engine.Db, cfg: RepositoryBase.Config, items: Option<seq<Entity>>,
                          dropExistingRecords: bool): (r: Write<Engine.Db>)
    ensures items.None? ==> r == Write(db, [], false)
    ensures items.Some? ==> r.accessed == [Inbox]
    ensures r.threw <==> items.Some? && dropExistingRecords && !DistinctIds(items.value)
    ensures r.threw ==> Engine.Coll(r.state, RepositoryBase.CollectionOf(cfg)) == []
    ensures items.Some? && dropExistingRecords && !r.threw ==>
              forall id :: Engine.FindById(Engine.Coll(r.state, RepositoryBase.CollectionOf(cfg)), id)
                           == Engine.FindById(items.value, id)
    ensures forall n :: n != RepositoryBase.CollectionOf(cfg) ==> Engine.Coll(r.state, n) == Engine.Coll(db, n)
    ensures Engine.ValidDb(db) ==> Engine.ValidDb(r.state)
  {
    match items
    case None => Write(db, [], false)
    case Some(list) =>
      var name := RepositoryBase.CollectionOf(cfg);
      if !dropExistingRecords then
        Write(Engine.Put(db, name, Engine.UpsertAll(Engine.Coll(db, name), list)), [Inbox], false)
      else if DistinctIds(list) then
        Write(Engine.Put(db, name, Engine.ReplaceAll(Engine.Coll(db, name), list)), [Inbox], false)
      else
        Write(Engine.Put(db, name, []), [Inbox], true)
  }

  /** `DeleteItem(id)`: removes the entity stored under `id`, if any. */
  function DeleteItem(db: Engine.Db, cfg: RepositoryBase.Config, id: string): (r: Write<Engine.Db>)
    ensures r.accessed == [Inbox] && !r.threw
    ensures forall e :: e in Engine.Coll(r.state, RepositoryBase.CollectionOf(cfg)) <==>
              e in Engine.Coll(db, RepositoryBase.CollectionOf(cfg)) && e.id != id
    ensures forall n :: n != RepositoryBase.CollectionOf(cfg) ==> Engine.Coll(r.state, n) == Engine.Coll(db, n)
    ensures Engine.ValidDb(db) ==> Engine.ValidDb(r.state)
  {
    var name := RepositoryBase.CollectionOf(cfg);
    Write(Engine.Put(db, name, Engine.DeleteById(Engine.Coll(db, name), id)), [Inbox], false)
  }

  /** `DeleteMany(predicate)`: removes every entity satisfying `p`. */
  function DeleteMany(db: Engine.Db, cfg: RepositoryBase.Config, p: Entity -> bool): (r: Write<Engine.Db>)
    ensures r.accessed == [Inbox] && !r.threw
    ensures forall e :: e in Engine.Coll(r.state, RepositoryBase.CollectionOf(cfg)) <==>
              e in Engine.Coll(db, RepositoryBase.CollectionOf(cfg)) && !p(e)
    ensures forall n :: n != RepositoryBase.CollectionOf(cfg) ==> Engine.Coll(r.state, n) == Engine.Coll(db, n)
    ensures Engine.ValidDb(db) ==> Engine.ValidDb(r.state)
  {
    var name := RepositoryBase.CollectionOf(cfg);
    Write(Engine.Put(db, name, Engine.DeleteMany(Engine.Coll(db, name), p)), [Inbox], false)
  }

  /**
   `DropCollection()`: drops the collection `CollectionName ?? typeof(T).Name` on the inbox
   database (engine errors swallowed), then runs the index hook on it again.
   */
  function DropCollection(h: StoreHandle.Handle, db: Engine.Db, cfg: RepositoryBase.Config,
                          first: StoreHandle.OpenOutcome, second: StoreHandle.OpenOutcome,
                          outcome: StoreHandle.DropOutcome, indexOk: bool): (r: StoreHandle.Dropped)
    ensures StoreHandle.GetDatabaseInstance(h, first, second).outcome == StoreHandle.Done ==>
              && r.content == StoreHandle.DropFromContent(db, RepositoryBase.CollectionOf(cfg), outcome)
              && (r.step.outcome == StoreHandle.Done <==> indexOk)
    ensures StoreHandle.GetDatabaseInstance(h, first, second).outcome != StoreHandle.Done ==>
              r.content == db && r.step == StoreHandle.GetDatabaseInstance(h, first, second)
    ensures forall n :: n != RepositoryBase.CollectionOf(cfg) ==> Engine.Coll(r.content, n) == Engine.Coll(db, n)
  {
    var dropped := StoreHandle.DropCollection(h, db, RepositoryBase.CollectionOf(cfg), first, second, outcome);
    if dropped.step.outcome != StoreHandle.Done then dropped
    else dropped.(step := RepositoryBase.EnsureIndexes(dropped.step.handle, first, second, indexOk))
  }

  // ---------------------------------------------------------------------------
  // Properties relating the calls

  /** Read after write: the upserted item is what `GetForId` returns afterwards. */
  lemma UpsertThenGet(db: Engine.Db, cfg: RepositoryBase.Config, e: Entity)
    ensures GetForId(UpsertItem(db, cfg, Some(e)).state, cfg, e.id).value == Some(e)
  {
  }

  /** A null item or list leaves the store alone and obtains no collection, so it opens nothing. */
  lemma NullWritesTouchNothing(db: Engine.Db, cfg: RepositoryBase.Config, drop: bool)
    ensures UpsertItem(db, cfg, None) == Write(db, [], false)
    ensures UpsertAllItems(db, cfg, None, drop) == Write(db, [], false)
  {
  }

  /** After a delete, the id is gone from both lookups. */
  lemma DeleteThenGet(db: Engine.Db, cfg: RepositoryBase.Config, id: string)
    ensures var after := DeleteItem(db, cfg, id).state;
            GetForId(after, cfg, id).value == None && !HasId(GetAll(after, cfg).value, id)
  {
  }

  /** `DeleteMany(p)` leaves exactly what `QueryItems(not p)` found, and `QueryItems(p)` then finds nothing. */
  lemma DeleteManyLeavesComplement(db: Engine.Db, cfg: RepositoryBase.Config, p: Entity -> bool)
    ensures var after := DeleteMany(db, cfg, p).state;
            && (forall e :: e in GetAll(after, cfg).value <==> e in QueryItems(db, cfg, (x: Entity) => !p(x)).value)
            && QueryItems(after, cfg, p).value == []
  {
  }

  /** `FindItem(p)` finds something exactly when `QueryItems(p)` does, and what it finds is among those. */
  lemma FindItemAgreesWithQuery(db: Engine.Db, cfg: RepositoryBase.Config, p: Entity -> bool)
    ensures FindItem(db, cfg, p).value.None? <==> QueryItems(db, cfg, p).value == []
    ensures FindItem(db, cfg, p).value.Some? ==> FindItem(db, cfg, p).value.value in QueryItems(db, cfg, p).value
  {
    var q := QueryItems(db, cfg, p).value;
    if q != [] {
      assert q[0] in q;
    }
  }

  /** `GetForId(id)` finds something exactly when `GetAll()` holds an entity with that `Id`. */
  lemma GetForIdAgreesWithGetAll(db: Engine.Db, cfg: RepositoryBase.Config, id: string)
    ensures GetForId(db, cfg, id).value.Some? <==> HasId(GetAll(db, cfg).value, id)
    ensures GetForId(db, cfg, id).value.Some? ==> GetForId(db, cfg, id).value.value in GetAll(db, cfg).value
  {
  }

  /** Without the drop flag, each `Id` ends up with the last item carrying it, else its old entity. */
  lemma UpsertAllLastWins(db: Engine.Db, cfg: RepositoryBase.Config, items: seq<Entity>, id: string)
    ensures GetForId(UpsertAllItems(db, cfg, Some(items), false).state, cfg, id).value
            == match Engine.LastById(items, id) case Some(e) => Some(e) case None => GetForId(db, cfg, id).value
  {
    var name := RepositoryBase.CollectionOf(cfg);
    Engine.UpsertAllLastWins(Engine.Coll(db, name), items, id);
  }

  /** After a drop that reached the engine and succeeded, the collection reads as empty. */
  lemma DropThenGetAll(h: StoreHandle.Handle, db: Engine.Db, cfg: RepositoryBase.Config,
                       first: StoreHandle.OpenOutcome, second: StoreHandle.OpenOutcome, indexOk: bool)
    requires StoreHandle.GetDatabaseInstance(h, first, second).outcome == StoreHandle.Done
    ensures GetAll(DropCollection(h, db, cfg, first, second, StoreHandle.DropSucceeds, indexOk).content, cfg).value == []
  {
  }
}

=== FILE: repositorybase.dfy ===
/**
 The part every repository shares (`RepositoryBase`): a once-only initialisation gate that
 opens each of the repository's databases and then lets each ensure its indexes, and the
 way a repository obtains its collection from a database.

 The gate's semaphore is a held/free flag, as in `StoreHandle`. The databases are opened
 through `StoreHandle.Initialize`, whose outcomes are inputs; whether the index hook of a
 database succeeds is an input too, since the hook is a subclass's override.
 */
module RepositoryBase {
  import opened Entities
  import StoreHandle

  /** `_isInitialized` and `_initSemaphoreSlim`, with how often the semaphore was taken and given back. */
  datatype Gate = Gate(isInitialized: bool, lockHeld: bool, acquires: nat, releases: nat)

  /** How opening one database and running its index hook end. */
  datatype DbInput = DbInput(first: StoreHandle.OpenOutcome, second: StoreHandle.OpenOutcome, indexOk: bool)

  /** The gate and databases after `Initialize()`, how it ended, and how many index hooks ran. */
  datatype GateStep = GateStep(gate: Gate, dbs: seq<StoreHandle.Handle>, outcome: StoreHandle.Outcome, hooksRun: nat)

  /** The collection settings of a repository for entity type `typeName`: `CollectionName` may be null. */
  datatype Config = Config(collectionName: Option<string>, typeName: string)

  /**
   The collection a repository reads and writes: `CollectionName`, or the entity's type
   name when that is null (the engine's default when `GetCollection` is given null).
   */
  function CollectionOf(cfg: Config): (name: string)
    ensures cfg.collectionName.Some? ==> name == cfg.collectionName.value
    ensures cfg.collectionName.None? ==> name == cfg.typeName
  {
    match cfg.collectionName
    case Some(n) => n
    case None => cfg.typeName
  }

  /** How `Task.WhenAll` over two tasks ends: never, if one never ends; else thrown, if one threw. */
  function BothOf(a: StoreHandle.Outcome, b: StoreHandle.Outcome): (r: StoreHandle.Outcome)
    ensures r.Blocked? <==> a.Blocked? || b.Blocked?
    ensures r.Done? <==> a.Done? && b.Done?
  {
    if a.Blocked? || b.Blocked? then StoreHandle.Blocked
    else if a.Threw? || b.Threw? then StoreHandle.Threw
    else StoreHandle.Done
  }

  /** The outcome of opening database `i` on its own. */
  function OpenOf(dbs: seq<StoreHandle.Handle>, inputs: seq<DbInput>, i: nat): StoreHandle.Step
    requires |inputs| == |dbs| && i < |dbs|
  {
    StoreHandle.Initialize(dbs[i], inputs[i].first, inputs[i].second)
  }

  /**
   How `Task.WhenAll` over the given calls ends: blocked if one blocks, thrown if one throws,
   done only if all are.
   */
  function Joint(steps: seq<StoreHandle.Step>): (r: StoreHandle.Outcome)
    ensures r.Done? <==> forall i :: 0 <= i < |steps| ==> steps[i].outcome.Done?
    ensures r.Blocked? <==> exists i :: 0 <= i < |steps| && steps[i].outcome.Blocked?
    decreases |steps|
  {
    if steps == [] then StoreHandle.Done
    else
      var rest := Joint(steps[1..]);
      assert forall i :: 1 <= i < |steps| ==> steps[i] == steps[1..][i - 1];
      BothOf(steps[0].outcome, rest)
  }

  /**
   `Task.WhenAll(DatabaseList.Select(db => db.Initialize()))`: every database is opened,
   each on its own handle, and the joint outcome is blocked if one blocks, thrown if one
   throws, and done only if all are.
   */
  function OpenAll(dbs: seq<StoreHandle.Handle>, inputs: seq<DbInput>): (r: (seq<StoreHandle.Handle>, StoreHandle.Outcome))
    requires |inputs| == |dbs|
    ensures |r.0| == |dbs|
    ensures forall i :: 0 <= i < |dbs| ==> r.0[i] == OpenOf(dbs, inputs, i).handle
    ensures r.1 == StoreHandle.Done <==> forall i :: 0 <= i < |dbs| ==> OpenOf(dbs, inputs, i).outcome == StoreHandle.Done
    ensures r.1 == StoreHandle.Blocked <==> exists i :: 0 <= i < |dbs| && OpenOf(dbs, inputs, i).outcome == StoreHandle.Blocked
  {
    var steps := seq(|dbs|, i requires 0 <= i < |dbs| => OpenOf(dbs, inputs, i));
    (seq(|dbs|, i requires 0 <= i < |dbs| => steps[i].handle), Joint(steps))
  }

  /**
   `EnsureIndexesInternal`: the index hook of each database in list order, stopping at the
   first that throws. Returns how many hooks ran and whether all succeeded.
   */
  function IndexAll(indexOk: seq<bool>): (r: (nat, bool))
    ensures r.1 <==> forall i :: 0 <= i < |indexOk| ==> indexOk[i]
    ensures r.1 ==> r.0 == |indexOk|
    ensures !r.1 ==> 1 <= r.0 <= |indexOk| && !indexOk[r.0 - 1]
    ensures forall i :: 0 <= i < r.0 - 1 ==> indexOk[i]
  {
    if indexOk == [] then (0, true)
    else if !indexOk[0] then (1, false)
    else
      var rest := IndexAll(indexOk[1..]);
      (rest.0 + 1, rest.1)
  }

  function IndexOks(inputs: seq<DbInput>): (oks: seq<bool>)
    ensures |oks| == |inputs| && forall i :: 0 <= i < |inputs| ==> oks[i] == inputs[i].indexOk
  {
    seq(|inputs|, i requires 0 <= i < |inputs| => inputs[i].indexOk)
  }

  /** The `finally` of `Initialize()`. */
  function ReleasedGate(g: Gate): (r: Gate)
    ensures !r.lockHeld && r.releases == g.releases + 1
    ensures r.isInitialized == g.isInitialized && r.acquires == g.acquires
  {
    g.(lockHeld := false, releases := g.releases + 1)
  }

  /**
   `Initialize()`: returns at once when the flag is set; otherwise takes the semaphore,
   opens every database, ensures indexes, sets the flag, and releases the semaphore on
   every exit. The re-check after the wait cannot fire one call at a time.
   */
  function Initialize(g: Gate, dbs: seq<StoreHandle.Handle>, inputs: seq<DbInput>): (r: GateStep)
    requires |inputs| == |dbs|
    ensures g.isInitialized ==> r == GateStep(g, dbs, StoreHandle.Done, 0)
    ensures !g.isInitialized && g.lockHeld ==> r == GateStep(g, dbs, StoreHandle.Blocked, 0)
    ensures r.gate.isInitialized <==> r.outcome == StoreHandle.Done
    ensures |r.dbs| == |dbs|
    ensures !g.isInitialized && !g.lockHeld ==>
              && r.gate.acquires == g.acquires + 1
              && (r.outcome == StoreHandle.Blocked <==> r.gate.lockHeld)
              && r.gate.releases == g.releases + (if r.outcome == StoreHandle.Blocked then 0 else 1)
              && (forall i :: 0 <= i < |dbs| ==> r.dbs[i] == OpenOf(dbs, inputs, i).handle)
              && (r.outcome == StoreHandle.Done <==>
                    (forall i :: 0 <= i < |dbs| ==> OpenOf(dbs, inputs, i).outcome == StoreHandle.Done)
                    && (forall i :: 0 <= i < |dbs| ==> inputs[i].indexOk))
    ensures !g.isInitialized && r.outcome == StoreHandle.Done ==>
              forall i :: 0 <= i < |dbs| ==> StoreHandle.IsInitialized(r.dbs[i])
    ensures r.hooksRun > 0 ==> forall i :: 0 <= i < |dbs| ==> OpenOf(dbs, inputs, i).outcome == StoreHandle.Done
    ensures r.hooksRun <= |dbs|
  {
    if g.isInitialized then GateStep(g, dbs, StoreHandle.Done, 0)
    else if g.lockHeld then GateStep(g, dbs, StoreHandle.Blocked, 0)
    else
      var locked := g.(lockHeld := true, acquires := g.acquires + 1);
      var all := OpenAll(dbs, inputs);
      if all.1 == StoreHandle.Blocked then GateStep(locked, all.0, StoreHandle.Blocked, 0)
      else if all.1 == StoreHandle.Threw then GateStep(ReleasedGate(locked), all.0, StoreHandle.Threw, 0)
      else
        var indexed := IndexAll(IndexOks(inputs));
        if indexed.1 then GateStep(ReleasedGate(locked).(isInitialized := true), all.0, StoreHandle.Done, indexed.0)
        else GateStep(ReleasedGate(locked), all.0, StoreHandle.Threw, indexed.0)
  }

  /** Once the flag is set, later calls touch neither the semaphore nor any database. */
  lemma InitializeIsIdempotent(g: Gate, dbs: seq<StoreHandle.Handle>, inputs: seq<DbInput>, later: seq<DbInput>)
    requires |inputs| == |dbs| && |later| == |dbs|
    requires Initialize(g, dbs, inputs).outcome == StoreHandle.Done
    ensures var s := Initialize(g, dbs, inputs);
            Initialize(s.gate, s.dbs, later) == GateStep(s.gate, s.dbs, StoreHandle.Done, 0)
  {
  }

  /** A call that threw leaves the flag unset and the semaphore free, so the next call tries again. */
  lemma FailedInitializeIsRetried(g: Gate, dbs: seq<StoreHandle.Handle>, inputs: seq<DbInput>, later: seq<DbInput>)
    requires |inputs| == |dbs| && |later| == |dbs|
    requires !g.lockHeld
    requires Initialize(g, dbs, inputs).outcome == StoreHandle.Threw
    ensures var s := Initialize(g, dbs, inputs);
            && !s.gate.isInitialized && !s.gate.lockHeld
            && Initialize(s.gate, s.dbs, later).gate.acquires == s.gate.acquires + 1
  {
  }

  /** Index hooks run in list order: a hook runs only after every earlier one succeeded. */
  lemma IndexHooksRunInOrder(g: Gate, dbs: seq<StoreHandle.Handle>, inputs: seq<DbInput>)
    requires |inputs| == |dbs|
    ensures var s := Initialize(g, dbs, inputs);
            forall i :: 0 <= i < s.hooksRun - 1 ==> inputs[i].indexOk
  {
    if !g.isInitialized && !g.lockHeld && OpenAll(dbs, inputs).1 == StoreHandle.Done {
      var indexed := IndexAll(IndexOks(inputs));
      assert forall i :: 0 <= i < indexed.0 - 1 ==> IndexOks(inputs)[i];
    }
  }

  /**
   After the databases opened, obtaining their collections for the index hooks opens
   nothing again: each `GetDatabaseInstance` returns the handle unchanged.
   */
  lemma IndexingReopensNothing(g: Gate, dbs: seq<StoreHandle.Handle>, inputs: seq<DbInput>,
                               first: StoreHandle.OpenOutcome, second: StoreHandle.OpenOutcome)
    requires |inputs| == |dbs| && !g.isInitialized && !g.lockHeld
    requires OpenAll(dbs, inputs).1 == StoreHandle.Done
    ensures var s := Initialize(g, dbs, inputs);
            forall i :: 0 <= i < |dbs| ==>
              StoreHandle.GetDatabaseInstance(s.dbs[i], first, second) == StoreHandle.Step(s.dbs[i], StoreHandle.Done)
  {
  }

  /** `GetCollection(db)`: the database instance, opened if needed, and the repository's collection name. */
  function GetCollection(h: StoreHandle.Handle, cfg: Config, first: StoreHandle.OpenOutcome, second: StoreHandle.OpenOutcome)
    : (r: (StoreHandle.Step, string))
    ensures StoreHandle.IsInitialized(h) ==> r.0 == StoreHandle.Step(h, StoreHandle.Done)
    ensures r.0.outcome == StoreHandle.Done ==> StoreHandle.IsInitialized(r.0.handle)
    ensures !StoreHandle.IsInitialized(h) && h.lockHeld ==> r.0.outcome == StoreHandle.Blocked
    ensures cfg.collectionName.Some? ==> r.1 == cfg.collectionName.value
    ensures cfg.collectionName.None? ==> r.1 == cfg.typeName
  {
    (StoreHandle.GetDatabaseInstance(h, first, second), CollectionOf(cfg))
  }

  /** Once a collection was obtained, obtaining it again opens nothing and names the same collection. */
  lemma GetCollectionIsStable(h: StoreHandle.Handle, cfg: Config, first: StoreHandle.OpenOutcome,
                              second: StoreHandle.OpenOutcome, later1: StoreHandle.OpenOutcome,
                              later2: StoreHandle.OpenOutcome)
    requires GetCollection(h, cfg, first, second).0.outcome == StoreHandle.Done
    ensures var got := GetCollection(h, cfg, first, second);
            GetCollection(got.0.handle, cfg, later1, later2) == got
  {
  }

  /** `EnsureIndexes(db)`: obtains the collection, then runs the index hook, which may throw. */
  function EnsureIndexes(h: StoreHandle.Handle, first: StoreHandle.OpenOutcome, second: StoreHandle.OpenOutcome,
                         indexOk: bool): (r: StoreHandle.Step)
    ensures StoreHandle.IsInitialized(h) ==> r.handle == h
    ensures r.outcome == StoreHandle.Done <==>
              StoreHandle.GetDatabaseInstance(h, first, second).outcome == StoreHandle.Done && indexOk
  {
    var s := StoreHandle.GetDatabaseInstance(h, first, second);
    if s.outcome == StoreHandle.Done && !indexOk then s.(outcome := StoreHandle.Threw) else s
  }

  /**
   On a database the repository already obtained a collection from, ensuring indexes
   leaves the handle as it is and ends as the hook does.
   */
  lemma EnsureIndexesAfterOpen(h: StoreHandle.Handle, cfg: Config, first: StoreHandle.OpenOutcome,
                               second: StoreHandle.OpenOutcome, later1: StoreHandle.OpenOutcome,
                               later2: StoreHandle.OpenOutcome, indexOk: bool)
    requires GetCollection(h, cfg, first, second).0.outcome == StoreHandle.Done
    ensures var ready := GetCollection(h, cfg, first, second).0.handle;
            EnsureIndexes(ready, later1, later2, indexOk)
            == StoreHandle.Step(ready, if indexOk then StoreHandle.Done else StoreHandle.Threw)
  {
  }

  /**
   A database whose two open attempts both threw keeps its own semaphore, so the
   repository's next initialisation takes the gate and never gets past that database:
   the gate stays held from then on.
   */
  lemma WedgedDatabaseHoldsGate(g: Gate, h: StoreHandle.Handle, indexOk: bool, later: DbInput)
    requires !g.isInitialized && !g.lockHeld
    requires !StoreHandle.IsInitialized(h) && !h.lockHeld
    ensures var s := Initialize(g, [h], [DbInput(StoreHandle.OpenThrows, StoreHandle.OpenThrows, indexOk)]);
            && s.outcome == StoreHandle.Threw && !s.gate.lockHeld
            && Initialize(s.gate, s.dbs, [later]).outcome == StoreHandle.Blocked
            && Initialize(s.gate, s.dbs, [later]).gate.lockHeld
  {
    var inputs := [DbInput(StoreHandle.OpenThrows, StoreHandle.OpenThrows, indexOk)];
    var s := Initialize(g, [h], inputs);
    assert OpenOf([h], inputs, 0).outcome == StoreHandle.Threw;
    assert s.dbs[0] == OpenOf([h], inputs, 0).handle;
    assert OpenOf(s.dbs, [later], 0).outcome == StoreHandle.Blocked;
  }
}

=== FILE: storehandle.dfy ===
/**
 The lifecycle of one database handle (`BaseDb`), run one call at a time: lazy open with
 exactly one retry after a reset, dispose, reset, checkpoint and teardown, the file names
 it uses, and dropping a collection while swallowing engine errors.

 The file system is two existence flags, and the handle's semaphore is a held/free flag with
 counts of how often it was taken and given back. Whether an open attempt or a checkpoint
 succeeds is an input: it depends on the engine, the key provider and the disk.
 In this sequential model, waiting on a semaphore that is already held can never end, so
 such a call is reported as `Blocked`.
 */
module StoreHandle {
  import opened Entities
  import Engine

  /** `_databaseInstance`: absent, open, or disposed but still referenced. */
  datatype Instance = Null | Live | Disposed

  /**
   How one open attempt ends: the connection opens and the probe passes, the connection
   string or constructor throws (no instance is assigned), or the instance is assigned and
   then the existence probe throws.
   */
  datatype OpenOutcome = Opened | OpenThrows | ProbeThrows

  /**
   A handle: its instance, whether the database and log files exist, whether its
   semaphore is taken, and how often the semaphore was taken and given back and an
   open was attempted over the handle's life.
   */
  datatype Handle = Handle(instance: Instance, dbFile: bool, logFile: bool, lockHeld: bool,
                           acquires: nat, releases: nat, attempts: nat)

  /** How a call ends: it returns, it throws, or it waits forever on a semaphore nobody will release. */
  datatype Outcome = Done | Threw | Blocked

  datatype Step = Step(handle: Handle, outcome: Outcome)

  /** `IsInitialized`: there is an instance, even a disposed one. */
  predicate IsInitialized(h: Handle)
  {
    h.instance != Null
  }

  // ---------------------------------------------------------------------------
  // File names

  const Separator: char := '/'

  /** A file name without any directory part. */
  predicate IsBareName(name: string)
  {
    Separator !in name
  }

  /** `Path.Combine(folder, name)` for a bare name: no separator is doubled, an empty folder adds none. */
  function Combine(folder: string, name: string): (p: string)
    requires IsBareName(name)
    ensures folder <= p
    ensures exists prefix :: p == prefix + name && (prefix == [] || prefix[|prefix| - 1] == Separator)
  {
    if folder == [] then
      assert name == [] + name;
      name
    else if folder[|folder| - 1] == Separator then folder + name
    else folder + [Separator] + name
  }

  /** The index of the last '.' of `name`, if any. */
  function LastDot(name: string): (k: Option<nat>)
    ensures k.Some? ==> k.value < |name| && name[k.value] == '.' && '.' !in name[k.value + 1..]
    ensures k.None? ==> '.' !in name
  {
    if name == [] then None
    else if name[|name| - 1] == '.' then Some(|name| - 1)
    else
      var k := LastDot(name[..|name| - 1]);
      assert name == name[..|name| - 1] + [name[|name| - 1]];
      if k.Some? then
        assert name[k.value + 1..] == name[..|name| - 1][k.value + 1..] + [name[|name| - 1]];
        k
      else k
  }

  /** `Path.GetExtension`: from the last '.' on, or empty when there is none or it ends the name. */
  function Extension(name: string): (ext: string)
    ensures ext == [] || (ext[0] == '.' && |ext| >= 2 && '.' !in ext[1..])
    ensures exists k :: 0 <= k <= |name| && ext == name[k..]
  {
    match LastDot(name)
    case None => name[|name|..]
    case Some(k) => if k == |name| - 1 then name[|name|..] else name[k..]
  }

  /** `Path.GetFileNameWithoutExtension`: everything before the last '.'. */
  function Stem(name: string): (stem: string)
    ensures stem <= name
  {
    match LastDot(name)
    case None => name
    case Some(k) => name[..k]
  }

  /** `DbNameLog`: the stem, then "-log", then the extension. */
  function LogName(name: string): string
  {
    Stem(name) + "-log" + Extension(name)
  }

  /** `GetDatabasePath`: the database name inside the folder. */
  function DatabasePath(folder: string, dbName: string): (p: string)
    requires IsBareName(dbName)
    ensures folder <= p
    ensures exists prefix :: p == prefix + dbName && (prefix == [] || prefix[|prefix| - 1] == Separator)
  {
    Combine(folder, dbName)
  }

  /** `GetDatabaseLogPath`: the log name inside the same folder. */
  function LogPath(folder: string, dbName: string): (p: string)
    requires IsBareName(dbName)
    ensures folder <= p
    ensures exists prefix :: p == prefix + LogName(dbName) && (prefix == [] || prefix[|prefix| - 1] == Separator)
  {
    LogNameIsBare(dbName);
    Combine(folder, LogName(dbName))
  }

  lemma LogNameIsBare(name: string)
    requires IsBareName(name)
    ensures IsBareName(LogName(name))
  {
    var ext := Extension(name);
    var k :| 0 <= k <= |name| && ext == name[k..];
    assert forall c :: c in Stem(name) ==> c in name;
    assert forall c :: c in ext ==> c in name;
  }

  /** The log name carries the database's extension and the stem with "-log" appended. */
  lemma LogNameSplits(name: string)
    requires name == [] || name[|name| - 1] != '.'
    ensures Stem(LogName(name)) == Stem(name) + "-log"
    ensures Extension(LogName(name)) == Extension(name)
  {
    match LastDot(name)
    case None => LogNameSplitsNoDot(name);
    case Some(k) => LogNameSplitsDot(name, k);
  }

  lemma LogNameSplitsNoDot(name: string)
    requires LastDot(name).None?
    ensures Stem(LogName(name)) == Stem(name) + "-log"
    ensures Extension(LogName(name)) == Extension(name)
  {
    var log := LogName(name);
    assert Stem(name) == name;
    assert Extension(name) == [];
    assert log == name + "-log";
    assert '.' !in log;
    NoDotHasNoLastDot(log);
  }

  lemma NoDotHasNoLastDot(s: string)
    requires '.' !in s
    ensures LastDot(s) == None
  {
  }

  lemma LogNameSplitsDot(name: string, k: nat)
    requires LastDot(name) == Some(k) && k != |name| - 1
    ensures Stem(LogName(name)) == Stem(name) + "-log"
    ensures Extension(LogName(name)) == Extension(name)
  {
    var stem := Stem(name) + "-log";
    var ext := Extension(name);
    assert ext == name[k..];
    assert LogName(name) == stem + ext;
    SplitAtLastDot(stem, ext);
  }

  /** Whatever precedes it, a proper extension is what the name splits off last. */
  lemma SplitAtLastDot(prefix: string, ext: string)
    requires |ext| >= 2 && ext[0] == '.' && '.' !in ext[1..]
    ensures Stem(prefix + ext) == prefix && Extension(prefix + ext) == ext
  {
    var s := prefix + ext;
    assert s[|prefix| + 1..] == ext[1..];
    LastDotIsUnique(s, |prefix|);
  }

  lemma {:induction false} LastDotIsUnique(s: string, k: nat)
    requires k < |s| && s[k] == '.' && '.' !in s[k + 1..]
    ensures LastDot(s) == Some(k)
    decreases |s|
  {
    if k != |s| - 1 {
      var init := s[..|s| - 1];
      assert s[k + 1..] == init[k + 1..] + [s[|s| - 1]];
      LastDotIsUnique(init, k);
    }
  }

  /** The log file and the database file are never the same path, so a reset deletes two files. */
  lemma LogPathDiffers(folder: string, dbName: string)
    requires IsBareName(dbName)
    ensures LogPath(folder, dbName) != DatabasePath(folder, dbName)
  {
    LogNameIsBare(dbName);
    var log := LogName(dbName);
    var ext := Extension(dbName);
    assert |Stem(dbName)| + |ext| + 1 >= |dbName| by {
      match LastDot(dbName)
      case None =>
      case Some(k) =>
    }
    assert |log| > |dbName|;
    if LogPath(folder, dbName) == DatabasePath(folder, dbName) {
      CombineInjective(folder, log, dbName);
    }
  }

  lemma CombineInjective(folder: string, a: string, b: string)
    requires IsBareName(a) && IsBareName(b)
    requires Combine(folder, a) == Combine(folder, b)
    ensures a == b
  {
    if folder != [] && folder[|folder| - 1] != Separator {
      assert a == Combine(folder, a)[|folder| + 1..];
      assert b == Combine(folder, b)[|folder| + 1..];
    } else if folder != [] {
      assert a == Combine(folder, a)[|folder|..];
      assert b == Combine(folder, b)[|folder|..];
    }
  }

  /** The paths the repository's own test fixture expects. */
  lemma TestFixturePaths()
    ensures LogName("TestBaseDb.db") == "TestBaseDb-log.db"
    ensures DatabasePath("DatabaseFolderPath", "TestBaseDb.db") == "DatabaseFolderPath/TestBaseDb.db"
    ensures LogPath("DatabaseFolderPath", "TestBaseDb.db") == "DatabaseFolderPath/TestBaseDb-log.db"
  {
    FixtureLogName();
    FixtureDatabasePath();
    FixtureLogPath();
  }

  lemma FixtureDatabasePath()
    ensures DatabasePath("DatabaseFolderPath", "TestBaseDb.db") == "DatabaseFolderPath/TestBaseDb.db"
  {
    FixtureCombine("TestBaseDb.db");
  }

  lemma FixtureLogPath()
    ensures LogPath("DatabaseFolderPath", "TestBaseDb.db") == "DatabaseFolderPath/TestBaseDb-log.db"
  {
    FixtureLogName();
    FixtureCombine("TestBaseDb-log.db");
  }

  lemma FixtureLogName()
    ensures LogName("TestBaseDb.db") == "TestBaseDb-log.db"
  {
    var n := "TestBaseDb.db";
    LastDotIsUnique(n, 10);
    assert n[..10] == "TestBaseDb" && n[10..] == ".db";
  }

  lemma FixtureCombine(name: string)
    requires name == "TestBaseDb.db" || name == "TestBaseDb-log.db"
    ensures Combine("DatabaseFolderPath", name) == "DatabaseFolderPath/" + name
  {
    var folder := "DatabaseFolderPath";
    assert folder[|folder| - 1] == 'h';
  }

  // ---------------------------------------------------------------------------
  // Elementary steps

  function Acquired(h: Handle): (r: Handle)
    requires !h.lockHeld
    ensures r.lockHeld && r.acquires == h.acquires + 1
  {
    h.(lockHeld := true, acquires := h.acquires + 1)
  }

  function Released(h: Handle): (r: Handle)
    requires h.lockHeld
    ensures !r.lockHeld && r.releases == h.releases + 1
  {
    h.(lockHeld := false, releases := h.releases + 1)
  }

  /** The semaphore and its counts are the same in both handles. */
  predicate SameLock(a: Handle, b: Handle)
  {
    a.lockHeld == b.lockHeld && a.acquires == b.acquires && a.releases == b.releases && a.attempts == b.attempts
  }

  /** `Dispose()`: disposes the instance if there is one and forgets it; files and semaphore are untouched. */
  function Dispose(h: Handle): (r: Handle)
    ensures !IsInitialized(r)
    ensures r.dbFile == h.dbFile && r.logFile == h.logFile && SameLock(h, r)
  {
    h.(instance := Null)
  }

  lemma DisposeIsIdempotent(h: Handle)
    ensures Dispose(Dispose(h)) == Dispose(h)
    ensures !IsInitialized(Dispose(h))
  {
  }

  /** `File.Delete` of the log file: deleting an absent file is not an error. */
  function DeleteLogFile(h: Handle): (r: Handle)
    ensures !r.logFile
    ensures r.dbFile == h.dbFile && r.instance == h.instance && SameLock(h, r)
  {
    if h.logFile then h.(logFile := false) else h
  }

  /** `ResetDatabase`: deletes the log file, then the database file, each only if it exists. */
  function ResetDatabase(h: Handle): (r: Handle)
    ensures !r.logFile && !r.dbFile
    ensures r.instance == h.instance && SameLock(h, r)
  {
    var h1 := DeleteLogFile(h);
    if h1.dbFile then h1.(dbFile := false) else h1
  }

  /** Resetting twice is resetting once: both deletes tolerate a missing file. */
  lemma ResetIsIdempotent(h: Handle)
    ensures ResetDatabase(ResetDatabase(h)) == ResetDatabase(h)
  {
  }

  // ---------------------------------------------------------------------------
  // Opening

  /** Whether a call that gets past the lock ends with an open connection. */
  predicate Succeeds(isRetry: bool, first: OpenOutcome, second: OpenOutcome)
  {
    if isRetry then second == Opened else first == Opened || second == Opened
  }

  /** One open attempt: the instance is assigned unless the constructor threw. */
  function Tried(h: Handle, outcome: OpenOutcome): (r: Handle)
    ensures r.instance == (if outcome == OpenThrows then h.instance else Live)
    ensures r.attempts == h.attempts + 1
  {
    h.(instance := if outcome == OpenThrows then h.instance else Live, attempts := h.attempts + 1)
  }

  /** The recovery before the retry: dispose and forget the instance, reset the files, release. */
  function CleanedUp(h: Handle): (r: Handle)
    requires h.lockHeld
    ensures !r.lockHeld && !IsInitialized(r) && !r.dbFile && !r.logFile
    ensures r.acquires == h.acquires && r.releases == h.releases + 1 && r.attempts == h.attempts
  {
    Released(ResetDatabase(Dispose(h)))
  }

  /**
   `InitializeInternal(isRetry)`, parameterised by whether a failed retry releases the
   semaphore before rethrowing (the source does not; see `InitializeReleasing`). The
   first attempt's outcome is `first`, the retry's is `second`.
   */
  function InitializeWith(h: Handle, isRetry: bool, first: OpenOutcome, second: OpenOutcome, releaseOnRethrow: bool): (r: Step)
    ensures IsInitialized(h) ==> r == Step(h, Done)
    ensures !IsInitialized(h) && h.lockHeld ==> r == Step(h, Blocked)
    ensures !IsInitialized(h) && !h.lockHeld ==>
              r.outcome == (if Succeeds(isRetry, first, second) then Done else Threw)
    ensures r.outcome == Done ==> IsInitialized(r.handle)
    ensures r.outcome == Done && !h.lockHeld ==> !r.handle.lockHeld
    ensures r.outcome == Threw ==> r.handle.lockHeld == !releaseOnRethrow
    ensures !IsInitialized(h) && !h.lockHeld && !isRetry && first != Opened && !IsInitialized(r.handle) ==>
              !r.handle.dbFile && !r.handle.logFile
    decreases if isRetry then 0 else 1, 1
  {
    if IsInitialized(h) then Step(h, Done)
    else if h.lockHeld then Step(h, Blocked)
    else LockedWith(Acquired(h), isRetry, first, second, releaseOnRethrow)
  }

  /**
   The part of `InitializeInternal` after the semaphore is taken. It re-checks the
   instance, because another caller may have opened it while this one waited.
   */
  function LockedWith(h: Handle, isRetry: bool, first: OpenOutcome, second: OpenOutcome, releaseOnRethrow: bool): (r: Step)
    requires h.lockHeld
    ensures IsInitialized(h) ==> r == Step(Released(h), Done)
    ensures !IsInitialized(h) ==> r.outcome == (if Succeeds(isRetry, first, second) then Done else Threw)
    ensures r.outcome == Done ==> IsInitialized(r.handle) && !r.handle.lockHeld
    ensures r.outcome == Threw ==> r.handle.lockHeld == !releaseOnRethrow
    ensures r.outcome != Blocked
    ensures !IsInitialized(h) && !isRetry && first != Opened && !IsInitialized(r.handle) ==>
              !r.handle.dbFile && !r.handle.logFile
    decreases if isRetry then 0 else 1, 0
  {
    if IsInitialized(h) then Step(Released(h), Done)
    else
      var outcome := if isRetry then second else first;
      var tried := Tried(h, outcome);
      if outcome == Opened then Step(Released(tried), Done)
      else if isRetry then Step(if releaseOnRethrow then Released(tried) else tried, Threw)
      else InitializeWith(CleanedUp(tried), true, first, second, releaseOnRethrow)
  }

  /** `InitializeInternal` as written: a failed retry rethrows while still holding the semaphore. */
  function InitializeInternal(h: Handle, isRetry: bool, first: OpenOutcome, second: OpenOutcome): (r: Step)
    ensures IsInitialized(h) ==> r == Step(h, Done)
    ensures !IsInitialized(h) && h.lockHeld ==> r == Step(h, Blocked)
    ensures !IsInitialized(h) && !h.lockHeld ==>
              r.outcome == (if Succeeds(isRetry, first, second) then Done else Threw)
    ensures r.outcome == Done ==> IsInitialized(r.handle)
    ensures r.outcome == Threw ==> r.handle.lockHeld
    ensures !IsInitialized(h) && !h.lockHeld && !isRetry && first != Opened && !IsInitialized(r.handle) ==>
              !r.handle.dbFile && !r.handle.logFile
  {
    InitializeWith(h, isRetry, first, second, false)
  }

  /** `InitializeInternal` with the semaphore released on every exit, as evidently intended. */
  function InitializeReleasing(h: Handle, isRetry: bool, first: OpenOutcome, second: OpenOutcome): (r: Step)
    ensures IsInitialized(h) ==> r == Step(h, Done)
    ensures !IsInitialized(h) && h.lockHeld ==> r == Step(h, Blocked)
    ensures !IsInitialized(h) && !h.lockHeld ==>
              r.outcome == (if Succeeds(isRetry, first, second) then Done else Threw)
    ensures r.outcome == Done ==> IsInitialized(r.handle)
    ensures !h.lockHeld ==> !r.handle.lockHeld
  {
    InitializeWith(h, isRetry, first, second, true)
  }

  /** Semaphore and attempt counts of one call, the retry included when `isRetry` is false. */
  lemma {:induction false} LockedAccounting(h: Handle, isRetry: bool, first: OpenOutcome, second: OpenOutcome, releaseOnRethrow: bool)
    requires !IsInitialized(h) && !h.lockHeld
    ensures var r := InitializeWith(h, isRetry, first, second, releaseOnRethrow).handle;
            && r.attempts - h.attempts == (if isRetry || first == Opened then 1 else 2)
            && r.acquires - h.acquires == (if isRetry || first == Opened then 1 else 2)
            && (InitializeWith(h, isRetry, first, second, releaseOnRethrow).outcome == Done || releaseOnRethrow ==>
                  r.acquires - h.acquires == r.releases - h.releases)
            && (InitializeWith(h, isRetry, first, second, releaseOnRethrow).outcome == Threw && !releaseOnRethrow ==>
                  r.acquires - h.acquires == r.releases - h.releases + 1)
    decreases if isRetry then 0 else 1
  {
    var outcome := if isRetry then second else first;
    var tried := Tried(Acquired(h), outcome);
    if outcome != Opened && !isRetry {
      LockedAccounting(CleanedUp(tried), true, first, second, releaseOnRethrow);
    }
  }

  /**
   Every call takes the semaphore at most twice and makes at most two open attempts;
   a call that returns normally releases it as often as it took it, and a failed retry
   leaves it taken once more than released.
   */
  lemma InitializeAccounting(h: Handle, first: OpenOutcome, second: OpenOutcome)
    ensures var r := InitializeInternal(h, false, first, second);
            && r.handle.attempts - h.attempts == (if IsInitialized(h) || h.lockHeld then 0 else if first == Opened then 1 else 2)
            && r.handle.acquires - h.acquires == (if IsInitialized(h) || h.lockHeld then 0 else if first == Opened then 1 else 2)
            && (r.outcome == Done ==> r.handle.acquires - h.acquires == r.handle.releases - h.releases)
            && (r.outcome == Threw ==> r.handle.acquires - h.acquires == r.handle.releases - h.releases + 1)
  {
    if !IsInitialized(h) && !h.lockHeld {
      LockedAccounting(h, false, first, second, false);
    }
  }

  /** With the semaphore released on every exit, every call gives it back as often as it took it. */
  lemma ReleasingIsBalanced(h: Handle, first: OpenOutcome, second: OpenOutcome)
    ensures var r := InitializeReleasing(h, false, first, second);
            && r.handle.attempts - h.attempts <= 2
            && r.handle.acquires - h.acquires == r.handle.releases - h.releases
  {
    if !IsInitialized(h) && !h.lockHeld {
      LockedAccounting(h, false, first, second, true);
    }
  }

  /**
   The source as written: when both attempts fail before an instance exists, the
   semaphore stays taken, so every later open of that handle waits forever.
   */
  lemma RetryFailureWedgesHandle(h: Handle)
    requires !IsInitialized(h) && !h.lockHeld
    ensures var failed := InitializeInternal(h, false, OpenThrows, OpenThrows);
            && failed.outcome == Threw
            && !IsInitialized(failed.handle)
            && InitializeInternal(failed.handle, false, Opened, Opened).outcome == Blocked
  {
  }

  /** With the semaphore released on every exit, a handle whose opens failed can still be opened later. */
  lemma ReleasingRecovers(h: Handle, first: OpenOutcome, second: OpenOutcome)
    requires !IsInitialized(h) && !h.lockHeld
    ensures var s := InitializeReleasing(h, false, first, second);
            InitializeReleasing(s.handle, false, Opened, Opened).outcome == Done
  {
  }

  /** A retry that fails after the instance was assigned leaves the handle looking initialised. */
  lemma FailedProbeOnRetryLooksInitialized(h: Handle, first: OpenOutcome)
    requires !IsInitialized(h) && !h.lockHeld && first != Opened
    ensures var s := InitializeInternal(h, false, first, ProbeThrows);
            s.outcome == Threw && IsInitialized(s.handle) && s.handle.instance == Live
  {
  }

  /** `Initialize()`: the open as written, so a failed retry keeps the semaphore. */
  function Initialize(h: Handle, first: OpenOutcome, second: OpenOutcome): (r: Step)
    ensures IsInitialized(h) ==> r == Step(h, Done)
    ensures !IsInitialized(h) && h.lockHeld ==> r == Step(h, Blocked)
    ensures !IsInitialized(h) && !h.lockHeld ==> (r.outcome == Done <==> first == Opened || second == Opened)
    ensures r.outcome == Done ==> IsInitialized(r.handle)
    ensures r.outcome == Done && !h.lockHeld ==> !r.handle.lockHeld
    ensures r.outcome == Threw ==> r.handle.lockHeld
  {
    InitializeInternal(h, false, first, second)
  }

  /** `GetDatabaseInstance`: opens first when there is no instance; a returned instance is never null. */
  function GetDatabaseInstance(h: Handle, first: OpenOutcome, second: OpenOutcome): (r: Step)
    ensures IsInitialized(h) ==> r == Step(h, Done)
    ensures r.outcome == Done ==> IsInitialized(r.handle)
    ensures !IsInitialized(h) && !h.lockHeld ==> (r.outcome == Done <==> first == Opened || second == Opened)
    ensures !IsInitialized(h) && h.lockHeld ==> r.outcome == Blocked
    ensures r.outcome == Done && !h.lockHeld ==> !r.handle.lockHeld
    ensures r.outcome == Threw ==> r.handle.lockHeld
  {
    if !IsInitialized(h) then InitializeInternal(h, false, first, second) else Step(h, Done)
  }

  /**
   `ReinitializeCollections`: dispose and forget the instance, reset the files, then open
   again, so at least one fresh open attempt is made even on an open handle.
   */
  function ReinitializeCollections(h: Handle, first: OpenOutcome, second: OpenOutcome): (r: Step)
    ensures h.lockHeld ==> r.outcome == Blocked
    ensures !h.lockHeld ==> (r.outcome == Done <==> first == Opened || second == Opened)
    ensures r.outcome == Done ==> IsInitialized(r.handle) && !r.handle.lockHeld
    ensures r.outcome == Threw ==> r.handle.lockHeld
  {
    InitializeInternal(ResetDatabase(Dispose(h)), false, first, second)
  }

  /** A reinitialisation always makes a fresh open attempt, even on an open handle. */
  lemma ReinitializeReopens(h: Handle, first: OpenOutcome, second: OpenOutcome)
    requires !h.lockHeld
    ensures ReinitializeCollections(h, first, second).handle.attempts > h.attempts
  {
    LockedAccounting(ResetDatabase(Dispose(h)), false, first, second, false);
  }

  // ---------------------------------------------------------------------------
  // Checkpoint, teardown, drop

  /** `DbCheckPoint`: nothing without an instance; a failed checkpoint deletes the log file. */
  function DbCheckPoint(h: Handle, checkpointOk: bool): (r: Handle)
    ensures !IsInitialized(h) ==> r == h
    ensures IsInitialized(h) && !checkpointOk ==> !r.logFile
    ensures checkpointOk ==> r.logFile == h.logFile
    ensures r.instance == h.instance && r.lockHeld == h.lockHeld && r.dbFile == h.dbFile
  {
    if h.instance == Null then h
    else
      if checkpointOk then h else DeleteLogFile(h)
  }

  /**
   A checkpoint never closes the connection: an open handle is still handed out without
   reopening, and checkpointing again changes nothing more.
   */
  lemma CheckPointKeepsInstance(h: Handle, checkpointOk: bool, first: OpenOutcome, second: OpenOutcome)
    requires IsInitialized(h)
    ensures var c := DbCheckPoint(h, checkpointOk);
            && GetDatabaseInstance(c, first, second) == Step(c, Done)
            && DbCheckPoint(c, checkpointOk) == c
  {
  }

  /**
   `CheckPointAndDelete`: takes the semaphore and never gives it back, checkpoints,
   disposes the instance without forgetting it, and deletes the log file.
   */
  function CheckPointAndDelete(h: Handle, checkpointOk: bool): (r: Step)
    ensures h.lockHeld ==> r == Step(h, Blocked)
    ensures !h.lockHeld ==> r.outcome == Done && r.handle.lockHeld
    ensures !h.lockHeld ==> IsInitialized(r.handle) == IsInitialized(h)
    ensures !h.lockHeld && IsInitialized(h) ==> r.handle.instance == Disposed
    ensures !h.lockHeld ==> !r.handle.logFile && r.handle.dbFile == h.dbFile
  {
    if h.lockHeld then Step(h, Blocked)
    else
      var checkpointed := DbCheckPoint(Acquired(h), checkpointOk);
      var disposed :=
        if checkpointed.instance != Null
        then checkpointed.(instance := Disposed)
        else checkpointed;
      Step(DeleteLogFile(disposed), Done)
  }

  /** After teardown of a handle that was never opened, opening it waits forever. */
  lemma TeardownBlocksLaterOpen(h: Handle, checkpointOk: bool, first: OpenOutcome, second: OpenOutcome)
    requires !h.lockHeld && !IsInitialized(h)
    ensures GetDatabaseInstance(CheckPointAndDelete(h, checkpointOk).handle, first, second).outcome == Blocked
  {
  }

  /** After teardown of an open handle, the disposed instance is handed out again without reopening. */
  lemma TeardownHandsOutDisposedInstance(h: Handle, checkpointOk: bool, first: OpenOutcome, second: OpenOutcome)
    requires !h.lockHeld && IsInitialized(h)
    ensures var down := CheckPointAndDelete(h, checkpointOk).handle;
            GetDatabaseInstance(down, first, second) == Step(down, Done) && down.instance == Disposed
  {
  }

  /** How dropping a collection ends inside the engine. */
  datatype DropOutcome = DropSucceeds | DropThrows | CheckpointThrows

  /**
   The guarded part of `DropCollection(name)`: drop the collection, then checkpoint; an
   exception from either is logged and swallowed.
   */
  function DropFromContent(content: Engine.Db, name: string, outcome: DropOutcome): (r: Engine.Db)
    ensures outcome == DropThrows ==> r == content
    ensures outcome != DropThrows ==> name !in r && Engine.Coll(r, name) == []
    ensures forall n :: n != name ==> Engine.Coll(r, n) == Engine.Coll(content, n)
    ensures Engine.ValidDb(content) ==> Engine.ValidDb(r)
  {
    if outcome == DropThrows then content else content - {name}
  }

  datatype Dropped = Dropped(step: Step, content: Engine.Db)

  /**
   `DropCollection(name)`: obtains the instance (opening it if needed; a failure there is
   not caught), then drops with errors swallowed.
   */
  function DropCollection(h: Handle, content: Engine.Db, name: string, first: OpenOutcome, second: OpenOutcome,
                          outcome: DropOutcome): (r: Dropped)
    ensures GetDatabaseInstance(h, first, second).outcome == Done ==> r.step.outcome == Done
    ensures GetDatabaseInstance(h, first, second).outcome != Done ==> r.step == GetDatabaseInstance(h, first, second)
    ensures r.step.outcome != Done ==> r.content == content
    ensures r.step.outcome == Done ==> r.content == DropFromContent(content, name, outcome)
  {
    var s := GetDatabaseInstance(h, first, second);
    if s.outcome != Done then Dropped(s, content)
    else
      Dropped(s, DropFromContent(content, name, outcome))
  }
}
